=== FILE: README.md ===
# Task/User assignment synchronisation, in Dafny

This project models the part of the task-manager API (an Express + Mongoose
service with `Task` and `User` collections) that keeps the two sides of a
task assignment in step:

- `Task.assignedUser` and `Task.assignedUserName`, on the task side;
- `User.pendingTasks`, on the user side.

The model covers:

- the record shapes and defaults of the two Mongoose schemas;
- the task-side helpers `addTaskToUserPending` and `removeTaskFromAnyUser`;
- the relationship logic of `POST /tasks`, `PUT /tasks/:id` and
  `DELETE /tasks/:id`;
- the user-side helpers `assignTaskToUser` and `unassignTask`;
- the relationship logic of `POST /users`, `PUT /users/:id` and
  `DELETE /users/:id`;
- the `toBoolean` coercion.

The database is a value, `Store(tasks, users, taskOrder)`:

- `tasks` and `users` map ids to immutable records.
- `taskOrder` is the natural order in which an unsorted `Task.find` returns
  tasks.

Every handler is a pure function from a store and a decoded request body
to a `Reply`. A reply carries an `Outcome` and the store the handler leaves
behind. The outcome is either `Ok` with a status and a value, or `Err` with
the status and message the route sends.

`assignTaskToUser` receives the caller's in-memory user document, updates
it, and saves it whole. The model passes that document by value and returns
the updated copy, so a copy that has gone stale stays stale. `PUT /users/:id`
shows why this matters. The copy it loads at the start is out of date once
`unassignTask` has edited the stored user's list.

- In the program, that edit replaces the stored array and so raises the
  user's Mongoose version. Every later save of the stale copy that changes
  its list is refused with a `VersionError`. One such save is
  `assignTaskToUser`'s, if a task is then assigned. Another is the final
  recomputation's save (routes/users.js:170-171). So every replace in
  which an unassignment removes an id from the stored list answers 500,
  and the recomputed list is never written.
- The model lets those saves succeed. It writes the stale list back, and
  the final recomputation from the tasks repairs it: see
  `UserRoutesProofs.StaleCopyNeedsRecompute`. The 200 reply and that
  repair are the model's, not the program's.

The central property is `Collections.Consistent`. It says that:

- every task assigned to someone names an existing user and carries that
  user's current name;
- every unassigned task is named "unassigned";
- every user's pending list is, without duplicates, exactly the ids of the
  incomplete tasks assigned to it;
- emails are unique and every stored record passed validation.

`TaskRoutesProofs` and `UserRoutesProofs` prove that each of the six
handlers, run alone to completion, maps a consistent store to a consistent
store. In the model this holds on every path, error paths included. For
`PUT /users/:id` it holds only because the model lets the stale-copy save
succeed; the program's refused save is listed under "## Left out".

Files, one module each:

- `base.dfy`: ids, `Option`, `Outcome`.
- `coerce.dfy`: request values (`JsValue`), JavaScript truthiness,
  `toBoolean`, and Mongoose's string cast.
- `id_lists.dfy`: the list operations on pending lists:
  - `filter` is `Remove`;
  - `Array.from(new Set(...))` is `Dedupe` / `AddToSet`.
- `task_model.dfy` and `user_model.dfy`: records, validation, defaults.
- `collections.dfy`: the store, single-record reads and writes, and the
  consistency invariant.
- `task_routes.dfy` and `user_routes.dfy`: the helpers and handlers.
- `task_routes_proofs.dfy` and `user_routes_proofs.dfy`: invariant
  preservation, the created user's pending list, and the stale-copy example.

## Model

| member | source | states |
|---|---|---|
| Coerce.Truthy | routes/users.js:98 | a request field is falsy exactly when it is undefined, null, false, 0 or the empty string, which are the values the name, email and deadline checks reject (also routes/tasks.js:101) |
| Coerce.TrimStart | routes/tasks.js:22 | the front-trimmed string is no longer than the input and does not start with JavaScript whitespace |
| Coerce.TrimEnd | routes/tasks.js:22 | the back-trimmed string is no longer than the input and does not end with JavaScript whitespace |
| Coerce.Trim | routes/tasks.js:22 | the trimmed string is no longer than the input and neither starts nor ends with JavaScript whitespace |
| Coerce.Keyword | routes/tasks.js:22 | the word compared is no longer than the input, holds no upper-case ASCII letter, and neither starts nor ends with JavaScript whitespace |
| Coerce.ToBoolean | routes/tasks.js:19-27 | a boolean is returned as is; a string that trims and lower-cases to "true"/"1" is true, to "false"/"0" is false; every other value gives the default when it is a boolean and false otherwise |
| Coerce.ToBooleanIgnoresPadding | routes/tasks.js:22 | surrounding a string with JavaScript whitespace never changes how it is read |
| Coerce.ToBooleanIgnoresCase | routes/tasks.js:22 | lower-casing a string first never changes how it is read |
| Coerce.TrimStartCutsWhitespace | routes/tasks.js:22 | trimming the front removes exactly a leading run of JavaScript whitespace and leaves a string that does not start with whitespace |
| Coerce.TrimEndCutsWhitespace | routes/tasks.js:22 | trimming the back removes exactly a trailing run of JavaScript whitespace and leaves a string that does not end with whitespace |
| Coerce.ToBooleanNonString | routes/tasks.js:20-26 | every number, 1 included, gives the boolean default (false when the default is not a boolean), and any value that is neither a boolean nor a string gives false under a non-boolean default |
| Coerce.CastString | models/task.js:6 | a string path keeps a string value, casts a truthy value to a non-empty string, casts an object to its `_id` when that is a non-empty string, and fails exactly on undefined, null, arrays and objects without such an `_id` (also models/user.js:6-7) |
| Coerce.StringOr | routes/tasks.js:104 | a string request field is taken as is and any other value is replaced by the fallback (also routes/tasks.js:106, :163, :173) |
| Coerce.Lower | routes/tasks.js:22 | lower-casing keeps the length, maps each upper-case ASCII letter to its lower-case partner, keeps every other character, and leaves no upper-case ASCII letter |
| TaskModel.BuildTask | models/task.js:5-12 | a task saves exactly when its cast name is non-empty and a deadline is present; omitted description, completed, assignedUser and assignedUserName become "", false, "" and "unassigned"; supplied values are kept |
| TaskModel.DefaultsAreUnassigned | models/task.js:10-11 | a task saved with neither assignment path is unassigned and named "unassigned" |
| TaskModel.NameAndDeadlineRequired | models/task.js:6-8 | a task without a name or without a deadline is never saved |
| UserModel.BuildUser | models/user.js:5-9 | a user saves exactly when its cast name and email are non-empty; an omitted pending list is empty and a supplied one is kept |
| UserModel.NameAndEmailRequired | models/user.js:6-7 | a user without a name or without an email is never saved |
| IdLists.Remove | routes/users.js:26 | the filter keeps exactly the other ids, with their multiplicities, stays duplicate-free, and is the identity when the id is absent |
| IdLists.RemoveUnique | routes/tasks.js:52 | on a duplicate-free list the filter splices out the one occurrence, keeping every other id in place |
| IdLists.RemoveAppend | routes/tasks.js:52 | filtering a concatenation filters each part |
| IdLists.Dedupe | routes/users.js:37-39 | the result of a set round trip is duplicate-free, has the same members, and leaves a duplicate-free list unchanged |
| IdLists.DedupeAbsorbs | routes/users.js:37-39 | deduplicating a prefix first and then the whole list is the same as deduplicating the whole list once |
| IdLists.AddToSet | routes/users.js:37-39 | adding an id through a set gives a duplicate-free list with the old members and the id, once; on a duplicate-free list it appends the id when absent and changes nothing otherwise |
| IdLists.Without | routes/users.js:157-158 | the ids to unassign are exactly the current ids that are not listed |
| Collections.FindAssigned | routes/users.js:153 | the query returns exactly the stored tasks assigned to the user (and incomplete, when asked), without duplicates when the natural order has none |
| Collections.SaveTask | routes/tasks.js:122 | saving a task stores it under its id and touches no user; an existing id keeps its place in the natural order and a new id joins the end |
| Collections.RemoveTask | routes/tasks.js:211 | removing a task drops it from the tasks and from the natural order, keeping every other id in the order, and touches no user |
| Collections.SaveUser | routes/users.js:101 | saving a user stores the record under its id and touches no task |
| Collections.RemoveUser | routes/users.js:193 | removing a user drops only that user and touches no task |
| Collections.EmailIndex | models/user.js:7 | in a store with unique emails, saving a user keeps emails unique exactly when no other user has the saved email, which is the condition behind the duplicate-email 400s (routes/users.js:113-116 and :176) |
| Collections.DropPending | routes/users.js:24-28 | the user loses exactly the task from its list, keeps its name and email and every other id, and every other user is untouched |
| TaskRoutes.AddTaskToUserPending | routes/tasks.js:42-55 | a no-op for an unassigned task or a missing user; a pending task ends up listed exactly once in a duplicate-free list (appended when new); a completed task is spliced out with the other ids in order, and a completed task the user does not list changes nothing; no other user changes |
| TaskRoutes.AddTaskToUserPendingIdempotent | routes/tasks.js:47-54 | running the helper a second time changes nothing |
| TaskRoutes.RemoveTaskFromAnyUser | routes/tasks.js:57-65 | an unassigned task or a missing assignee changes nothing; otherwise the assignee loses exactly the task from its list, keeps every other id, its name and email, and stays duplicate-free; tasks and every other user are untouched |
| TaskRoutes.RequestFields | routes/tasks.js:113-121 | the fields a handler hands to the task model build a task exactly when the cast name is non-empty; that task has the cast name, the parsed deadline, the string description (or ""), the coerced completed flag, the requested assignee, and assignedUserName forced to the assignee's current name (or "unassigned") whatever the client sent (also routes/tasks.js:172-179) |
| TaskRoutes.CreateTask | routes/tasks.js:98-133 | missing name or deadline, an invalid deadline, and an unknown assignee each give their 400 with the store unchanged; otherwise 201 with the new task appended, assignedUserName taken from the assignee (or "unassigned"), and the assignee listing the task iff it is not completed |
| TaskRoutes.CreateIgnoresAssignedUserName | routes/tasks.js:113-119 | the client's assignedUserName has no effect on a create |
| TaskRoutes.ReplaceTask | routes/tasks.js:151-202 | 400 for missing fields, 404 for an unknown id, 400 for an unknown assignee, 400 for an invalid deadline, each before any write; on success the stored task has the cast name, the parsed deadline, the string description (or ""), the requested assignee with its current name and the coerced completed flag; a different previous assignee no longer lists the task, the new assignee lists it iff it is not completed, and other users are untouched |
| TaskRoutes.DeleteTask | routes/tasks.js:205-217 | an unknown id is a 404 that changes nothing; otherwise the task is gone and its assignee no longer lists it |
| TaskRoutesProofs.AddPendingRepairs | routes/tasks.js:47-54 | when the assignee's list is right about every other task, the helper makes it exactly right |
| TaskRoutesProofs.SaveFreshTask | routes/tasks.js:121-122 | saving a new valid task with the right assignee name keeps every part of consistency except the assignee's view of that one task |
| TaskRoutesProofs.ResaveTask | routes/tasks.js:171-180 | overwriting a task keeps consistency except that the previous assignee may still list it |
| TaskRoutesProofs.DropPrevious | routes/tasks.js:183-189 | removing the task from a previous assignee that changed leaves only the new assignee able to list it |
| TaskRoutesProofs.PlaceTaskRestores | routes/tasks.js:192-196 | the final pending-list update restores full consistency |
| TaskRoutesProofs.CreateTaskKeepsConsistent | routes/tasks.js:98-133 | task create maps a consistent store to a consistent store |
| TaskRoutesProofs.ReplaceTaskKeepsConsistent | routes/tasks.js:151-202 | task replace maps a consistent store to a consistent store |
| TaskRoutesProofs.DeleteTaskKeepsConsistent | routes/tasks.js:205-217 | task delete maps a consistent store to a consistent store |
| UserRoutes.AssignTaskToUser | routes/users.js:18-46 | a missing task is skipped with nothing changed; otherwise a different previous assignee drops the task, the task gets the user's id and the copy's name, and the copy, holding the task exactly once iff it is pending, is what the user becomes |
| UserRoutes.AssignSettled | routes/users.js:31-44 | on a task already settled with this user and copy, the helper changes nothing |
| UserRoutes.AssignTaskToUserIdempotent | routes/users.js:18-46 | calling the helper again with the copy the first call returned changes nothing |
| UserRoutes.AssignTaskToUserRepeatSameCopy | routes/users.js:18-46 | calling the helper twice with the same copy leaves the same collections as calling it once |
| UserRoutes.UnassignTask | routes/users.js:48-62 | a missing task is skipped; otherwise the assignee drops the task, the task becomes "" / "unassigned", and no one's name or email changes |
| UserRoutes.AssignEach | routes/users.js:105-107 | exactly the listed tasks get the user's id and the copy's name; other tasks and other users' profiles are untouched; the returned copy is what is stored |
| UserRoutes.UnassignEach | routes/users.js:189-191 | exactly the listed tasks become unassigned; other tasks and every profile are untouched |
| UserRoutes.ListedPending | routes/users.js:104-110 | holds exactly the listed ids of existing, incomplete tasks |
| UserRoutes.CreateUser | routes/users.js:95-119 | missing name or email gives 400 and a taken email 400, with the store unchanged; otherwise 201 with the new user stored and returned, every existing listed task assigned to it under its name, and every other task untouched |
| UserRoutes.SaveAndAssign | routes/users.js:100-107 | after saving the new user and assigning the list, exactly the listed existing tasks carry the new user's id and name, and the user keeps its name and email |
| UserRoutes.SyncListedTasks | routes/users.js:150-171 | unlisted tasks the user held become unassigned, listed tasks are assigned with the copy's name, and the saved pending list is exactly the user's incomplete tasks, whatever the copy held |
| UserRoutes.ReassignListed | routes/users.js:153-166 | the user's unlisted tasks become unassigned, the listed ones carry the user's id and the copy's name, every other task and every other user's profile are untouched |
| UserRoutes.SaveAndSync | routes/users.js:146-171 | after saving name and email and reassigning, the user keeps the new profile and lists exactly its incomplete assigned tasks; tasks neither listed nor held by the user are untouched |
| UserRoutes.ReplaceUser | routes/users.js:137-179 | 400 for missing fields, 404 for an unknown id, and 400 for a duplicate email leave the store unchanged; on success the stored and returned user has the new name and email and lists exactly its incomplete assigned tasks, its unlisted tasks are unassigned, the listed ones carry its id and name, and every other task is untouched |
| UserRoutes.DeleteUser | routes/users.js:182-199 | an unknown id is a 404 that changes nothing; otherwise every task the user held becomes "" / "unassigned", other tasks and other users are untouched, and the user is gone |
| UserRoutes.UnassignEachKeepsOthers | routes/users.js:188-191 | unassigning tasks held by the deleted user, or by no one, leaves every other user's record as it was |
| UserRoutesProofs.ExceptCloses | routes/users.js:169-171 | once names are right, a correct pending list for the user is exactly what is missing for full consistency |
| UserRoutesProofs.ConsistentIsExcept | routes/users.js:142 | a consistent store satisfies the relaxed invariant for any loaded user |
| UserRoutesProofs.UnassignKeepsPendingOk | routes/users.js:48-62 | unassigning a task keeps every user's correct pending list correct |
| UserRoutesProofs.UnassignKeepsExcept | routes/users.js:48-62 | unassigning a task keeps the relaxed invariant, correct names, and a correct list for the excepted user |
| UserRoutesProofs.UnassignKeepsAssignees | routes/users.js:51-60 | unassigning a task keeps every record valid and every other assignment right, and the task is named "unassigned" |
| UserRoutesProofs.UnassignEachKeepsExcept | routes/users.js:157-161 | the same for a whole sequence of unassignments |
| UserRoutesProofs.AssignKeepsOthersPending | routes/users.js:22-29 | assigning a task to one user keeps every other user's correct pending list correct |
| UserRoutesProofs.AssignKeepsCopyPending | routes/users.js:35-44 | a copy that was correct about the user's pending tasks is still correct after the assignment updates it |
| UserRoutesProofs.AssignKeepsProfiles | routes/users.js:31-44 | with a copy carrying the user's name and email, no user's name or email changes |
| UserRoutesProofs.AssignKeepsAssignees | routes/users.js:31-33 | assignments to other users stay right, and the user's tasks keep carrying its name |
| UserRoutesProofs.AssignKeepsExcept | routes/users.js:18-46 | one assignment keeps the relaxed invariant and the names on the user's tasks |
| UserRoutesProofs.AssignEachKeepsExcept | routes/users.js:164-166 | a sequence of assignments keeps the relaxed invariant and names, and a correct copy stays correct |
| UserRoutesProofs.DeleteUserKeepsConsistent | routes/users.js:182-199 | user delete maps a consistent store to a consistent store: no task is left pointing at the removed user |
| UserRoutesProofs.SaveNewUserKeepsConsistent | routes/users.js:100-101 | saving a new valid user with an unused email and no pending tasks keeps consistency |
| UserRoutesProofs.CreateUserKeepsConsistent | routes/users.js:95-119 | user create maps a consistent store to a consistent store |
| UserRoutesProofs.SaveProfileKeepsExcept | routes/users.js:146-148 | saving the new name and email keeps the relaxed invariant, and the user's list is still correct |
| UserRoutesProofs.OnlyListedRemain | routes/users.js:153-161 | after the unassignments only listed tasks are still assigned to the user |
| UserRoutesProofs.AssignListedNames | routes/users.js:164-166 | after assigning the listed tasks every task of the user carries its new name |
| UserRoutesProofs.RecomputeRestores | routes/users.js:169-171 | recomputing the list from the tasks restores full consistency |
| UserRoutesProofs.SyncRestores | routes/users.js:150-171 | the task-side half of a user replace ends in a consistent store even though the copy it writes back is stale |
| UserRoutesProofs.ReplaceUserKeepsConsistent | routes/users.js:137-179 | user replace maps a consistent store to a consistent store, with the stale-copy save allowed to succeed |
| UserRoutesProofs.ListedPendingFrame | routes/users.js:36 | which listed tasks are pending depends only on which tasks exist and are completed |
| UserRoutesProofs.AssignStepPending | routes/users.js:36-44 | one assignment adds the task to the copy through a set when pending and filters it out when completed, without changing any task's completion |
| UserRoutesProofs.CollectPendingStep | routes/users.js:37-39 | adding one id through a set and then the rest equals deduplicating the whole list once |
| UserRoutesProofs.AssignEachCollects | routes/users.js:104-107 | the copy threaded through the assignments ends as its old list followed by the listed pending ids, each once, in first-listed order |
| UserRoutesProofs.CreateUserListsPending | routes/users.js:100-112 | the created user returned holds exactly the listed ids of existing, incomplete tasks, each once, in first-listed order |
| UserRoutesProofs.StaleCopyNeedsRecompute | routes/users.js:157-171 | in a concrete consistent store, the copy written back while assigning still lists a task that was just unassigned, which breaks consistency, and only the recomputation removes it |

## Left out

- GET list and get-by-id handlers, `parseJSONParam`, and the where/sort/select/skip/limit/count options: they delegate to MongoDB query semantics and `JSON.parse`.
- `toDate`: deadline parsing relies on JavaScript `Number`/`Date` parsing, NaN and floating-point epochs. It is the parameter `toDate: JsValue -> Option<Date>` of the task handlers.
- Express routing and the `ok`/`fail` envelopes: a reply is an abstract `Outcome` carrying the status and message.
- Mongoose id generation: the new id is a parameter, required to be unused.
- Concurrent requests and partial writes: a 500 raised after some writes have happened is not modelled. A save that fails validation before any write is modelled as a 500 with the store unchanged. Every other step is assumed to succeed.
- UserRoutes.ReplaceUser: Mongoose's version check on array writes is not modelled.
  - `unassignTask` (routes/users.js:54-55, called from :159) saves a whole new `pendingTasks` array. When that changes the stored list, the user's version rises.
  - The copy loaded at routes/users.js:142 is saved again later. Any of those saves that changes the copy's list is refused with a `VersionError`, and the handler answers 500. This covers `assignTaskToUser`'s saves (routes/users.js:39-40 or 42-43, reached from :165) and the final recomputation's save (routes/users.js:170-171).
  - Recomputing always drops the unassigned pending id from the stale copy. So every replace whose unassignments remove an id from the stored list answers 500, with or without listed tasks.
  - At that point the new name and email are saved and the unlisted tasks are unassigned. Any task assigned before the refused save is saved as assigned to the user (routes/users.js:33). The recomputed list is never written, so the program can leave the store inconsistent.
  - The model lets these saves succeed. Its 200 reply, the recomputation's repair, and `UserRoutesProofs.ReplaceUserKeepsConsistent` describe the handler without this failure.
- Ids as ObjectIds: each record's id is modelled as one canonical string, and every lookup compares ids as exact strings.
  - The program's `findById` casts its argument to an ObjectId. So any other spelling of the same 24 hex digits, upper-case letters for instance, finds the same record.
  - A task handler then stores that spelling as is as the task's `assignedUser` (routes/tasks.js:106, :121, :163, :178).
  - Later queries compare strings (routes/users.js:23, :153, :169, :188), so they miss the stored spelling. A user delete can then leave a task pointing at the removed user.
  - In the model, such a task request is a 400 (unknown assignee). A `POST /users` pending entry in another spelling is skipped in the model, where the program finds the task and assigns it under its canonical id (routes/users.js:106, then :19).
  - An id that is not a valid ObjectId at all makes `findById` throw a `CastError`. In the model it is simply not found.
- Pending-list entries are modelled as ids, and a pending list as `Option<seq<Id>>`, absent when the field is missing or not an array.
  - In `POST /users` each entry goes to `Task.findById` (routes/users.js:106, then :19). An entry that cannot be cast there raises a `CastError`, and the handler answers 500 after the user and any earlier tasks have been written.
  - In `PUT /users/:id` the entries pass through `String` first (routes/users.js:150).
  - Entries that are not strings are not modelled.
- `dateCreated`: not part of any relationship.
- Whole-record saves: a save writes the whole in-memory record, where Mongoose writes only the paths whose value changed. For the sequential runs modelled, the resulting store is the same, except for the stale copy in `PUT /users/:id`.
  - There, a save whose list is unchanged in memory writes nothing in the program. An example is adding an id the stale copy already holds.
  - The model writes the stale list back.
  - Where the copy's list does change, see the `UserRoutes.ReplaceUser` line above.
- Coerce.ToBoolean: `toLowerCase` is modelled on ASCII letters only. Full Unicode case mapping cannot turn any other character into one of "true", "false", "1" or "0" after trimming, so the comparisons are decided the same way.
- Coerce.CastString: numbers are integers (`Num(n: int)`). The decimal rendering of fractions, NaN and exponents is not modelled.
  - The cast follows Mongoose 5 and 6. The routes call `Document.remove`, which Mongoose 7 removed. Before Mongoose 5, an array was cast to its comma-joined elements instead of failing.
  - An object is reduced to its `_id` when that is a string. An object with a custom `toString` (one not inherited from `Object.prototype`), which the cast would call, is not modelled.
- Collections.AssigneeOk: the consistency invariant states "unassigned task ⇒ named "unassigned"" and "assigned task ⇒ named after its user". It does not state the converse, that a task named "unassigned" is unassigned, because a user may itself be named "unassigned".

=== FILE: base.dfy ===
/** Shared vocabulary: record ids, optional values and handler outcomes. */
module Base {

  /** A record id as the routes see it: the string form of a MongoDB `_id`.
      The empty string is reserved by `Task.assignedUser` to mean "unassigned". */
  type Id = string

  datatype Option<+T> = None | Some(value: T)

  /** What a route handler answers: a success status with its payload, or a
      failure status with the handler's message. The JSON envelope around it
      (`ok` / `fail`) is transport and is not modelled. */
  datatype Outcome<+T> = Ok(status: int, value: T) | Err(status: int, message: string)
}

=== FILE: coerce.dfy ===
/** Coercions the task routes apply to loosely typed request bodies:
    JavaScript truthiness, `typeof v === 'string'`, `String.prototype.trim`,
    the `toBoolean` helper, and Mongoose's cast of a value to a String path. */
module Coerce {
  import opened Base

  /** A JavaScript value as it can arrive in a decoded request body. Numbers
      are integers here. Arrays carry no contents, because no coercion below
      looks inside them. An object carries only its `_id` field, when that
      is a string, because that is all Mongoose's String cast reads. */
  datatype JsValue = Undefined | Null | Bool(b: bool) | Num(n: int) | Str(s: string) | Arr | Obj(stringId: Option<string>)

  /** JavaScript truthiness, as in `if (!name || !deadline)`: the falsy
      values are undefined, null, false, 0 and the empty string (NaN and
      -0 have no counterpart here). */
  predicate Truthy(v: JsValue)
    ensures !Truthy(v) <==> v == Undefined || v == Null || v == Bool(false) || v == Num(0) || v == Str("")
  {
    match v
    case Undefined => false
    case Null => false
    case Bool(b) => b
    case Num(n) => n != 0
    case Str(s) => s != ""
    case Arr => true
    case Obj(_) => true
  }

  /** `typeof v === 'string' ? v : fallback` */
  function StringOr(v: JsValue, fallback: string): (r: string)
    ensures v.Str? ==> r == v.s
    ensures !v.Str? ==> r == fallback
  {
    if v.Str? then v.s else fallback
  }

  /** The characters `String.prototype.trim` strips: WhiteSpace and
      LineTerminator of ECMAScript (section 12.2 and 12.3 of ECMA-262). */
  predicate IsJsWhitespace(c: char) {
    var n := c as int;
    || n == 0x09 || n == 0x0A || n == 0x0B || n == 0x0C || n == 0x0D
    || n == 0x20 || n == 0xA0 || n == 0x1680 || 0x2000 <= n <= 0x200A
    || n == 0x2028 || n == 0x2029 || n == 0x202F || n == 0x205F
    || n == 0x3000 || n == 0xFEFF
  }

  predicate AllWhitespace(s: string) {
    forall i :: 0 <= i < |s| ==> IsJsWhitespace(s[i])
  }

  /** Leading whitespace removed. */
  function TrimStart(s: string): (r: string)
    ensures |r| <= |s|
    ensures r == [] || !IsJsWhitespace(r[0])
  {
    if s == [] || !IsJsWhitespace(s[0]) then s else TrimStart(s[1..])
  }

  /** Trailing whitespace removed. */
  function TrimEnd(s: string): (r: string)
    ensures |r| <= |s|
    ensures r == [] || !IsJsWhitespace(r[|r| - 1])
  {
    if s == [] || !IsJsWhitespace(s[|s| - 1]) then s else TrimEnd(s[..|s| - 1])
  }

  /** `TrimStart` keeps a suffix and cuts off only whitespace. */
  lemma {:induction false} TrimStartCutsWhitespace(s: string)
    ensures var r := TrimStart(s);
            r == s[|s| - |r|..] && AllWhitespace(s[..|s| - |r|])
  {
    if s != [] && IsJsWhitespace(s[0]) {
      var r := TrimStart(s[1..]);
      assert TrimStart(s) == r;
      TrimStartCutsWhitespace(s[1..]);
      assert s[1..][|s| - 1 - |r|..] == s[|s| - |r|..];
      var cut := s[1..][..|s| - 1 - |r|];
      assert AllWhitespace(cut);
      assert s[..|s| - |r|] == [s[0]] + cut;
    }
  }

  /** `TrimEnd` keeps a prefix and cuts off only whitespace. */
  lemma {:induction false} TrimEndCutsWhitespace(s: string)
    ensures var r := TrimEnd(s);
            r == s[..|r|] && AllWhitespace(s[|r|..])
    decreases |s|
  {
    if s != [] && IsJsWhitespace(s[|s| - 1]) {
      var r := TrimEnd(s[..|s| - 1]);
      TrimEndCutsWhitespace(s[..|s| - 1]);
      assert s[..|s| - 1][..|r|] == s[..|r|];
      var cut := s[..|s| - 1][|r|..];
      forall i | |r| <= i < |s| ensures IsJsWhitespace(s[i]) {
        if i < |s| - 1 {
          assert s[i] == cut[i - |r|];
        }
      }
    }
  }

  /** `s.trim()` */
  function Trim(s: string): (r: string)
    ensures |r| <= |s|
    ensures r == [] || (!IsJsWhitespace(r[0]) && !IsJsWhitespace(r[|r| - 1]))
  {
    var t := TrimStart(s);
    TrimEndCutsWhitespace(t);
    TrimEnd(t)
  }

  /** Lower-casing of the ASCII letters. `toLowerCase` maps no other
      character to one of the letters of "true" or "false", so comparing
      against those words gives the same answer as the full Unicode mapping. */
  function LowerChar(c: char): char {
    if 'A' <= c <= 'Z' then (c as int + 32) as char else c
  }

  function Lower(s: string): (r: string)
    ensures |r| == |s|
    ensures forall i :: 0 <= i < |s| && !('A' <= s[i] <= 'Z') ==> r[i] == s[i]
    ensures forall i :: 0 <= i < |s| && 'A' <= s[i] <= 'Z' ==> r[i] as int == s[i] as int + 32
    ensures forall i :: 0 <= i < |r| ==> !('A' <= r[i] <= 'Z')
  {
    seq(|s|, i requires 0 <= i < |s| => LowerChar(s[i]))
  }

  /** The word `toBoolean` compares: `val.trim().toLowerCase()`. */
  function Keyword(s: string): (r: string)
    ensures |r| <= |s|
    ensures forall i :: 0 <= i < |r| ==> !('A' <= r[i] <= 'Z')
    ensures r == [] || (!IsJsWhitespace(r[0]) && !IsJsWhitespace(r[|r| - 1]))
  {
    var t := Trim(s);
    if t == [] then []
    else
      LowerKeepsWhitespace(t[0]);
      LowerKeepsWhitespace(t[|t| - 1]);
      Lower(t)
  }

  /** `toBoolean(val, def)`: booleans pass through, the strings "true"/"1"
      and "false"/"0" (after trimming and lower-casing) are read, and any
      other value gives `def` when that is a boolean and false otherwise. */
  function ToBoolean(val: JsValue, def: JsValue): (r: bool)
    ensures val.Bool? ==> r == val.b
    ensures val.Str? && (Keyword(val.s) == "true" || Keyword(val.s) == "1") ==> r
    ensures val.Str? && (Keyword(val.s) == "false" || Keyword(val.s) == "0") ==> !r
    ensures (!val.Bool? && !(val.Str? && Keyword(val.s) in {"true", "1", "false", "0"}))
              ==> r == (def.Bool? && def.b)
  {
    if val.Bool? then val.b
    else if val.Str? && (Keyword(val.s) == "true" || Keyword(val.s) == "1") then true
    else if val.Str? && (Keyword(val.s) == "false" || Keyword(val.s) == "0") then false
    else def.Bool? && def.b
  }

  lemma {:induction false} TrimStartPadded(p: string, s: string)
    requires AllWhitespace(p)
    ensures TrimStart(p + s) == TrimStart(s)
  {
    if p != [] {
      assert (p + s)[0] == p[0];
      assert (p + s)[1..] == p[1..] + s;
      TrimStartPadded(p[1..], s);
    } else {
      assert p + s == s;
    }
  }

  lemma {:induction false} TrimEndPadded(s: string, q: string)
    requires AllWhitespace(q)
    ensures TrimEnd(s + q) == TrimEnd(s)
    decreases |q|
  {
    if q != [] {
      var q' := q[..|q| - 1];
      assert (s + q)[|s + q| - 1] == q[|q| - 1];
      assert (s + q)[..|s + q| - 1] == s + q';
      TrimEndPadded(s, q');
    } else {
      assert s + q == s;
    }
  }

  /** Trimming a string followed by a tail: either the string was all
      whitespace and only the tail remains to be trimmed, or its trimmed
      start simply carries the tail along. */
  lemma {:induction false} TrimStartAppend(s: string, q: string)
    ensures TrimStart(s + q) == if AllWhitespace(s) then TrimStart(q) else TrimStart(s) + q
  {
    if s == [] {
      assert s + q == q;
    } else {
      var sq := s + q;
      assert sq[0] == s[0];
      if IsJsWhitespace(s[0]) {
        assert sq[1..] == s[1..] + q;
        TrimStartAppend(s[1..], q);
        assert TrimStart(sq) == TrimStart(s[1..] + q);
        assert TrimStart(s) == TrimStart(s[1..]);
        assert AllWhitespace(s) <==> AllWhitespace(s[1..]) by {
          if AllWhitespace(s[1..]) {
            forall i | 0 <= i < |s| ensures IsJsWhitespace(s[i]) {
              if i > 0 { assert s[i] == s[1..][i - 1]; }
            }
          }
        }
      } else {
        assert TrimStart(sq) == sq;
        assert TrimStart(s) == s;
        assert !AllWhitespace(s);
      }
    }
  }

  /** Whitespace around a value does not change what `trim` yields. */
  lemma TrimPadded(p: string, s: string, q: string)
    requires AllWhitespace(p) && AllWhitespace(q)
    ensures Trim(p + s + q) == Trim(s)
  {
    var t := s + q;
    var w := p + s + q;
    assert w == p + t by {
      assert |w| == |p + t|;
      forall i | 0 <= i < |w| ensures w[i] == (p + t)[i] { }
    }
    TrimStartPadded(p, t);
    TrimStartAppend(s, q);
    if AllWhitespace(s) {
      TrimStartPadded(q, []);
      assert q + [] == q;
      TrimStartPadded(s, []);
      assert s + [] == s;
    } else {
      TrimEndPadded(TrimStart(s), q);
    }
  }

  /** `toBoolean` reads a padded string the same way as the bare string. */
  lemma ToBooleanIgnoresPadding(p: string, s: string, q: string, def: JsValue)
    requires AllWhitespace(p) && AllWhitespace(q)
    ensures ToBoolean(Str(p + s + q), def) == ToBoolean(Str(s), def)
  {
    TrimPadded(p, s, q);
  }

  /** Lower-casing neither creates nor removes whitespace. */
  lemma LowerKeepsWhitespace(c: char)
    ensures IsJsWhitespace(LowerChar(c)) <==> IsJsWhitespace(c)
  {
  }

  lemma {:induction false} TrimStartLower(s: string)
    ensures TrimStart(Lower(s)) == Lower(TrimStart(s))
  {
    if s != [] {
      var l := Lower(s);
      assert l[0] == LowerChar(s[0]);
      LowerKeepsWhitespace(s[0]);
      if IsJsWhitespace(s[0]) {
        assert l[1..] == Lower(s[1..]);
        TrimStartLower(s[1..]);
      }
    }
  }

  lemma {:induction false} TrimEndLower(s: string)
    ensures TrimEnd(Lower(s)) == Lower(TrimEnd(s))
    decreases |s|
  {
    if s != [] {
      var l := Lower(s);
      assert l[|l| - 1] == LowerChar(s[|s| - 1]);
      LowerKeepsWhitespace(s[|s| - 1]);
      if IsJsWhitespace(s[|s| - 1]) {
        assert l[..|l| - 1] == Lower(s[..|s| - 1]);
        TrimEndLower(s[..|s| - 1]);
      }
    }
  }

  /** `toBoolean` is case-insensitive: a string and its lower-cased form
      are read the same way. */
  lemma ToBooleanIgnoresCase(s: string, def: JsValue)
    ensures ToBoolean(Str(Lower(s)), def) == ToBoolean(Str(s), def)
  {
    TrimStartLower(s);
    TrimEndLower(TrimStart(s));
    var t := Trim(s);
    assert Lower(Lower(t)) == Lower(t);
    assert Keyword(Lower(s)) == Keyword(s);
  }

  /** Numbers are not strings, so a number (1 included) always gives the
      default; a default that is not a boolean counts as false. */
  lemma ToBooleanNonString(n: int, val: JsValue, def: JsValue)
    ensures ToBoolean(Num(n), def) == (def.Bool? && def.b)
    ensures !def.Bool? && !val.Bool? && !val.Str? ==> !ToBoolean(val, def)
  {
  }

  function DigitChar(d: nat): char
    requires d < 10
  {
    "0123456789"[d]
  }

  function NatToDecimal(n: nat): (r: string)
    ensures r != []
  {
    if n < 10 then [DigitChar(n)] else NatToDecimal(n / 10) + [DigitChar(n % 10)]
  }

  /** `String(n)` for an integer `n`. */
  function IntToDecimal(n: int): (r: string)
    ensures r != []
  {
    if n < 0 then "-" + NatToDecimal(-n) else NatToDecimal(n)
  }

  /** Mongoose's cast of a value assigned to a `String` path, as in
      Mongoose 5 and 6. An object whose `_id` is a non-empty string casts
      to that `_id`. Scalars cast through `toString`. The result is `None`
      where the value is absent (undefined, null) or the cast throws (arrays,
      and objects without such an `_id`). */
  function CastString(v: JsValue): (r: Option<string>)
    ensures v.Str? ==> r == Some(v.s)
    ensures r.Some? && Truthy(v) ==> r.value != ""
    ensures r.None? <==> (|| v.Undefined? || v.Null? || v.Arr?
                          || (v.Obj? && (v.stringId.None? || v.stringId.value == "")))
    ensures v.Obj? && r.Some? ==> r == v.stringId
  {
    match v
    case Str(s) => Some(s)
    case Bool(b) => Some(if b then "true" else "false")
    case Num(n) => Some(IntToDecimal(n))
    case Obj(id) => if id.Some? && id.value != "" then id else None
    case _ => None
  }
}

=== FILE: collections.dfy ===
/** The two collections the routes read and write, the single-record
    operations they use on them, and the consistency the assignment protocol
    is meant to keep between them. */
module Collections {
  import opened Base
  import opened IdLists
  import opened TaskModel
  import opened UserModel

  /** Both collections. `taskOrder` is the tasks' natural order, the order
      in which an unsorted `Task.find` returns them. */
  datatype Store = Store(tasks: map<Id, Task>, users: map<Id, User>, taskOrder: seq<Id>)

  /** A handler's answer together with the collections it leaves behind. */
  datatype Reply<+T> = Reply(outcome: Outcome<T>, store: Store)

  /** Task `t` matches `{ assignedUser: uid }`, and `completed: false` too
      when `pendingOnly` holds. */
  predicate Matches(s: Store, t: Id, uid: Id, pendingOnly: bool) {
    t in s.tasks && s.tasks[t].assignedUser == uid && (!pendingOnly || !s.tasks[t].completed)
  }

  function FindIn(order: seq<Id>, s: Store, uid: Id, pendingOnly: bool): (r: seq<Id>)
    ensures forall t :: t in r <==> t in order && Matches(s, t, uid, pendingOnly)
    ensures NoDup(order) ==> NoDup(r)
  {
    if order == [] then []
    else
      var rest := FindIn(order[1..], s, uid, pendingOnly);
      assert order == [order[0]] + order[1..];
      NoDupCons(order[0], order[1..]);
      if Matches(s, order[0], uid, pendingOnly) then
        NoDupCons(order[0], rest);
        [order[0]] + rest
      else rest
  }

  /** `Task.find({ assignedUser: uid })` (with `completed: false` when
      `pendingOnly`), as the ids of the matching tasks in natural order. */
  function FindAssigned(s: Store, uid: Id, pendingOnly: bool): (r: seq<Id>)
    ensures forall t :: t in r <==> t in s.taskOrder && Matches(s, t, uid, pendingOnly)
    ensures NoDup(s.taskOrder) ==> NoDup(r)
  {
    FindIn(s.taskOrder, s, uid, pendingOnly)
  }

  /** `task.save()` under id `id`; a new id joins the end of the natural order. */
  function SaveTask(s: Store, id: Id, t: Task): (r: Store)
    ensures r.tasks == s.tasks[id := t] && r.users == s.users
    ensures id in s.tasks ==> r.taskOrder == s.taskOrder
    ensures id !in s.tasks ==> r.taskOrder == s.taskOrder + [id]
  {
    s.(tasks := s.tasks[id := t],
       taskOrder := if id in s.tasks then s.taskOrder else s.taskOrder + [id])
  }

  /** `task.remove()` */
  function RemoveTask(s: Store, id: Id): (r: Store)
    ensures r.tasks == s.tasks - {id} && r.users == s.users
    ensures id !in r.taskOrder
    ensures forall t :: t != id ==> (t in r.taskOrder <==> t in s.taskOrder)
  {
    s.(tasks := s.tasks - {id}, taskOrder := Remove(s.taskOrder, id))
  }

  /** `user.save()` of an in-memory user record under id `id`. */
  function SaveUser(s: Store, id: Id, u: User): (r: Store)
    ensures r.users == s.users[id := u] && r.tasks == s.tasks && r.taskOrder == s.taskOrder
  {
    s.(users := s.users[id := u])
  }

  /** `user.remove()` */
  function RemoveUser(s: Store, id: Id): (r: Store)
    ensures r.users == s.users - {id} && r.tasks == s.tasks && r.taskOrder == s.taskOrder
  {
    s.(users := s.users - {id})
  }

  /** Load user `uid`, if it exists, filter task `tid` out of its pending
      list, and save it: the step every route uses to drop a task from a
      user. A missing user is skipped. */
  function DropPending(s: Store, uid: Id, tid: Id): (r: Store)
    ensures r.tasks == s.tasks && r.taskOrder == s.taskOrder && r.users.Keys == s.users.Keys
    ensures forall u :: u in s.users && u != uid ==> r.users[u] == s.users[u]
    ensures uid in s.users ==>
              && r.users[uid].name == s.users[uid].name
              && r.users[uid].email == s.users[uid].email
              && tid !in r.users[uid].pendingTasks
              && (forall t :: t != tid ==> (t in r.users[uid].pendingTasks <==> t in s.users[uid].pendingTasks))
              && (NoDup(s.users[uid].pendingTasks) ==> NoDup(r.users[uid].pendingTasks))
  {
    if uid in s.users then
      var u := s.users[uid];
      SaveUser(s, uid, u.(pendingTasks := Remove(u.pendingTasks, tid)))
    else s
  }

  /** The unique index on `email`: some user other than `self` has `email`. */
  predicate EmailTaken(s: Store, email: string, self: Id) {
    exists u :: u in s.users && u != self && s.users[u].email == email
  }

  // ---------------------------------------------------------------------
  // Consistency between the two collections
  // ---------------------------------------------------------------------

  /** Task `t` is pending for user `u`: assigned to `u` and not completed. */
  predicate IsPendingFor(s: Store, t: Id, u: Id) {
    Matches(s, t, u, true)
  }

  /** `list` is exactly the set of tasks pending for `u`, without duplicates. */
  ghost predicate PendingOk(s: Store, u: Id, list: seq<Id>) {
    NoDup(list) && forall t :: t in list <==> IsPendingFor(s, t, u)
  }

  /** A task's assignment fields agree with the users: unassigned tasks are
      named "unassigned", assigned ones name an existing user and carry its
      current name. */
  ghost predicate AssigneeOk(s: Store, t: Task) {
    if t.assignedUser == "" then t.assignedUserName == Unassigned
    else t.assignedUser in s.users && t.assignedUserName == s.users[t.assignedUser].name
  }

  /** The natural order lists every task exactly once, and no user has the
      empty id that means "unassigned". */
  ghost predicate WellFormed(s: Store) {
    && NoDup(s.taskOrder)
    && (forall t :: t in s.taskOrder <==> t in s.tasks)
    && "" !in s.users
  }

  /** Every stored record passed schema validation. */
  ghost predicate RecordsValid(s: Store) {
    && (forall t :: t in s.tasks ==> ValidTask(s.tasks[t]))
    && (forall u :: u in s.users ==> ValidUser(s.users[u]))
  }

  ghost predicate UniqueEmails(s: Store) {
    forall u, v :: u in s.users && v in s.users && s.users[u].email == s.users[v].email ==> u == v
  }

  /** The unique index on `email`: in a store whose emails are unique,
      saving user `id` keeps them unique exactly when no other user already
      has the saved email. */
  lemma EmailIndex(s: Store, id: Id, u: User)
    requires UniqueEmails(s)
    ensures UniqueEmails(SaveUser(s, id, u)) <==> !EmailTaken(s, u.email, id)
  {
    var r := SaveUser(s, id, u);
    if EmailTaken(s, u.email, id) {
      var v :| v in s.users && v != id && s.users[v].email == u.email;
      assert r.users[v].email == r.users[id].email;
    }
  }

  /** The invariant the routes restore when each request runs alone to
      completion: every assignment names an existing user and its current
      name, and every user's pending list is exactly its assigned,
      incomplete tasks. */
  ghost predicate Consistent(s: Store) {
    && WellFormed(s)
    && RecordsValid(s)
    && UniqueEmails(s)
    && (forall t :: t in s.tasks ==> AssigneeOk(s, s.tasks[t]))
    && (forall u :: u in s.users ==> PendingOk(s, u, s.users[u].pendingTasks))
  }
}

=== FILE: id_lists.dfy ===
/** Id lists as `User.pendingTasks` uses them: the JavaScript `filter` that
    drops one id, and the `Array.from(new Set([...xs, id]))` that adds one. */
module IdLists {
  import opened Base

  /** No element occurs twice. */
  predicate NoDup(xs: seq<Id>) {
    forall i, j :: 0 <= i < j < |xs| ==> xs[i] != xs[j]
  }

  lemma NoDupCons(x: Id, xs: seq<Id>)
    ensures NoDup([x] + xs) <==> x !in xs && NoDup(xs)
  {
    var ys := [x] + xs;
    if x !in xs && NoDup(xs) {
      forall i, j | 0 <= i < j < |ys| ensures ys[i] != ys[j] {
        if i == 0 {
          assert ys[j] == xs[j - 1];
        }
      }
    }
    if NoDup(ys) {
      forall k | 0 <= k < |xs| ensures xs[k] != x {
        assert ys[k + 1] == xs[k];
        assert ys[0] != ys[k + 1];
      }
      forall i, j | 0 <= i < j < |xs| ensures xs[i] != xs[j] {
        assert ys[i + 1] != ys[j + 1];
      }
    }
  }

  lemma NoDupSnoc(xs: seq<Id>, x: Id)
    ensures NoDup(xs + [x]) <==> x !in xs && NoDup(xs)
  {
    var ys := xs + [x];
    if NoDup(ys) {
      forall k | 0 <= k < |xs| ensures xs[k] != x {
        assert ys[k] == xs[k];
        assert ys[k] != ys[|xs|];
      }
      forall i, j | 0 <= i < j < |xs| ensures xs[i] != xs[j] {
        assert ys[i] != ys[j];
      }
    }
  }

  /** In a duplicate-free list every member occurs exactly once. */
  lemma {:induction false} NoDupOccursOnce(xs: seq<Id>, y: Id)
    requires NoDup(xs)
    ensures multiset(xs)[y] == (if y in xs then 1 else 0)
  {
    if xs != [] {
      assert xs == [xs[0]] + xs[1..];
      NoDupCons(xs[0], xs[1..]);
      NoDupOccursOnce(xs[1..], y);
    }
  }

  /** `xs.filter(x => x !== y)`: every occurrence of `y` goes, every other
      element stays, with its multiplicity. */
  function Remove(xs: seq<Id>, y: Id): (r: seq<Id>)
    ensures forall x :: x in r <==> x in xs && x != y
    ensures multiset(r) == multiset(xs)[y := 0]
    ensures NoDup(xs) ==> NoDup(r)
    ensures y !in xs ==> r == xs
  {
    if xs == [] then []
    else
      var rest := Remove(xs[1..], y);
      assert xs == [xs[0]] + xs[1..];
      NoDupCons(xs[0], xs[1..]);
      if xs[0] == y then rest
      else
        NoDupCons(xs[0], rest);
        [xs[0]] + rest
  }

  /** Filtering distributes over concatenation, so the survivors keep their
      relative order. */
  lemma {:induction false} RemoveAppend(a: seq<Id>, b: seq<Id>, y: Id)
    ensures Remove(a + b, y) == Remove(a, y) + Remove(b, y)
  {
    if a == [] {
      assert a + b == b;
    } else {
      var ab := a + b;
      assert ab[0] == a[0];
      assert ab[1..] == a[1..] + b;
      RemoveAppend(a[1..], b, y);
    }
  }

  /** On a duplicate-free list, dropping `y` is cutting out the one position
      that holds it. */
  lemma RemoveUnique(xs: seq<Id>, y: Id, i: int)
    requires NoDup(xs) && 0 <= i < |xs| && xs[i] == y
    ensures Remove(xs, y) == xs[..i] + xs[i + 1..]
  {
    assert xs == xs[..i] + ([y] + xs[i + 1..]);
    RemoveAppend(xs[..i], [y] + xs[i + 1..], y);
    RemoveAppend([y], xs[i + 1..], y);
    assert y !in xs[..i] by {
      forall k | 0 <= k < i ensures xs[..i][k] != y {
        assert xs[k] != xs[i];
      }
    }
    assert y !in xs[i + 1..] by {
      forall k | i + 1 <= k < |xs| ensures xs[k] != y {
        assert xs[i] != xs[k];
      }
    }
  }

  /** `Array.from(new Set(xs))`: the first occurrence of each element, in
      order of first appearance. */
  function Dedupe(xs: seq<Id>): (r: seq<Id>)
    ensures NoDup(r)
    ensures forall x :: x in r <==> x in xs
    ensures NoDup(xs) ==> r == xs
    decreases |xs|
  {
    if xs == [] then []
    else
      var init := xs[..|xs| - 1];
      var last := xs[|xs| - 1];
      var d := Dedupe(init);
      assert xs == init + [last];
      NoDupSnoc(init, last);
      NoDupSnoc(d, last);
      if last in d then d else d + [last]
  }

  /** Deduplicating a prefix first does not change the final deduplication. */
  lemma {:induction false} DedupeAbsorbs(a: seq<Id>, b: seq<Id>)
    ensures Dedupe(Dedupe(a) + b) == Dedupe(a + b)
    decreases |b|
  {
    if b != [] {
      var b' := b[..|b| - 1];
      var y := b[|b| - 1];
      assert Dedupe(a) + b == (Dedupe(a) + b') + [y];
      assert a + b == (a + b') + [y];
      assert (Dedupe(a) + b')[..|Dedupe(a) + b'|] == Dedupe(a) + b';
      DedupeAbsorbs(a, b');
      assert ((Dedupe(a) + b') + [y])[..|Dedupe(a) + b'|] == Dedupe(a) + b';
      assert ((a + b') + [y])[..|a + b'|] == a + b';
    } else {
      assert Dedupe(a) + b == Dedupe(a);
      assert a + b == a;
    }
  }

  /** `Array.from(new Set([...xs, y]))`: set semantics for adding one id. */
  function AddToSet(xs: seq<Id>, y: Id): (r: seq<Id>)
    ensures NoDup(r)
    ensures forall x :: x in r <==> x in xs || x == y
    ensures multiset(r)[y] == 1
    ensures NoDup(xs) && y in xs ==> r == xs
    ensures NoDup(xs) && y !in xs ==> r == xs + [y]
  {
    var r := Dedupe(xs + [y]);
    assert (xs + [y])[..|xs|] == xs;
    NoDupOccursOnce(r, y);
    NoDupSnoc(xs, y);
    r
  }

  /** `ids.filter(x => !keep.includes(x))` */
  function Without(ids: seq<Id>, keep: seq<Id>): (r: seq<Id>)
    ensures forall x :: x in r <==> x in ids && x !in keep
  {
    if ids == [] then []
    else if ids[0] in keep then Without(ids[1..], keep)
    else [ids[0]] + Without(ids[1..], keep)
  }
}

=== FILE: task_model.dfy ===
/** The Task record of models/task.js: its fields, what a save requires of
    them and the defaults the schema fills in. */
module TaskModel {
  import opened Base
  import opened Coerce

  /** A deadline as a point in time (milliseconds since the epoch). */
  type Date = int

  /** The `assignedUserName` of a task nobody is assigned to. */
  const Unassigned: string := "unassigned"

  /** A stored task. Its id is the key it is stored under; `dateCreated` is
      not modelled. `assignedUser` is a user id, or "" for no one. */
  datatype Task = Task(
    name: string,
    description: string,
    deadline: Date,
    completed: bool,
    assignedUser: Id,
    assignedUserName: string)

  /** The values handed to `new Task({...})` or assigned to a loaded task's
      paths before `save()`; `None` where a path is left undefined. The name
      is still the raw request value: Mongoose casts it at save time. */
  datatype TaskFields = TaskFields(
    name: JsValue,
    description: Option<string>,
    deadline: Option<Date>,
    completed: Option<bool>,
    assignedUser: Option<Id>,
    assignedUserName: Option<string>)

  /** What every stored task satisfies: a non-empty name (the deadline is
      present by construction). */
  predicate ValidTask(t: Task) {
    t.name != ""
  }

  function OrElse<T>(o: Option<T>, fallback: T): T {
    if o.Some? then o.value else fallback
  }

  /** Document validation at `save()`: the name is cast to a string and must
      be non-empty, the deadline must be present, and each omitted optional
      path takes its schema default. `None` is the validation error. */
  function BuildTask(f: TaskFields): (r: Option<Task>)
    ensures r.Some? <==> CastString(f.name).Some? && CastString(f.name).value != "" && f.deadline.Some?
    ensures r.Some? ==> ValidTask(r.value)
    ensures r.Some? ==> r.value.name == CastString(f.name).value && r.value.deadline == f.deadline.value
    ensures r.Some? && f.description.None? ==> r.value.description == ""
    ensures r.Some? && f.completed.None? ==> !r.value.completed
    ensures r.Some? && f.assignedUser.None? ==> r.value.assignedUser == ""
    ensures r.Some? && f.assignedUserName.None? ==> r.value.assignedUserName == Unassigned
    ensures r.Some? ==> forall d :: f.description == Some(d) ==> r.value.description == d
    ensures r.Some? ==> forall c :: f.completed == Some(c) ==> r.value.completed == c
    ensures r.Some? ==> forall u :: f.assignedUser == Some(u) ==> r.value.assignedUser == u
    ensures r.Some? ==> forall n :: f.assignedUserName == Some(n) ==> r.value.assignedUserName == n
  {
    var name := CastString(f.name);
    if name.None? || name.value == "" || f.deadline.None? then None
    else Some(Task(
      name.value,
      OrElse(f.description, ""),
      f.deadline.value,
      OrElse(f.completed, false),
      OrElse(f.assignedUser, ""),
      OrElse(f.assignedUserName, Unassigned)))
  }

  /** The two assignment defaults agree: a task saved with neither
      assignment path set is unassigned and named so. */
  lemma DefaultsAreUnassigned(name: string, deadline: Date)
    requires name != ""
    ensures BuildTask(TaskFields(Str(name), None, Some(deadline), None, None, None))
              == Some(Task(name, "", deadline, false, "", Unassigned))
  {
  }

  /** A task without a name, or without a deadline, is never saved. */
  lemma NameAndDeadlineRequired(f: TaskFields)
    requires f.name.Undefined? || f.name == Str("") || f.deadline.None?
    ensures BuildTask(f).None?
  {
  }
}

=== FILE: task_routes.dfy ===
/** routes/tasks.js: the task-side helpers that keep `User.pendingTasks` in
    step with a task's assignment, and the relationship logic of the create,
    replace and delete handlers. */
module TaskRoutes {
  import opened Base
  import opened Coerce
  import opened IdLists
  import opened TaskModel
  import opened UserModel
  import opened Collections

  /** A task request body as the router decodes it; absent fields are
      `Undefined`. `assignedUserName` is accepted and always ignored. */
  datatype TaskBody = TaskBody(
    name: JsValue,
    description: JsValue,
    deadline: JsValue,
    completed: JsValue,
    assignedUser: JsValue,
    assignedUserName: JsValue)

  /** `addTaskToUserPending(task)` for the task just saved under `tid`: a
      no-op unless the task is assigned to an existing user; then that user
      lists the task exactly once if it is pending, and not at all if it is
      completed, keeping every other id in its place. */
  function AddTaskToUserPending(s: Store, tid: Id, task: Task): (r: Store)
    ensures r.tasks == s.tasks && r.taskOrder == s.taskOrder && r.users.Keys == s.users.Keys
    ensures task.assignedUser == "" || task.assignedUser !in s.users ==> r == s
    ensures forall u :: u in s.users && u != task.assignedUser ==> r.users[u] == s.users[u]
    ensures (task.completed && task.assignedUser in s.users && tid !in s.users[task.assignedUser].pendingTasks)
              ==> r == s
    ensures task.assignedUser != "" && task.assignedUser in s.users ==>
              var before := s.users[task.assignedUser].pendingTasks;
              var after := r.users[task.assignedUser].pendingTasks;
              && r.users[task.assignedUser].name == s.users[task.assignedUser].name
              && r.users[task.assignedUser].email == s.users[task.assignedUser].email
              && (forall t :: t != tid ==> (t in after <==> t in before))
              && (!task.completed ==> NoDup(after) && multiset(after)[tid] == 1)
              && (!task.completed && NoDup(before) && tid !in before ==> after == before + [tid])
              && (task.completed ==> tid !in after && (NoDup(before) ==> NoDup(after)))
              && (forall i :: task.completed && NoDup(before) && 0 <= i < |before| && before[i] == tid
                    ==> after == before[..i] + before[i + 1..])
  {
    if task.assignedUser == "" || task.assignedUser !in s.users then s
    else
      var user := s.users[task.assignedUser];
      if !task.completed then
        SaveUser(s, task.assignedUser, user.(pendingTasks := AddToSet(user.pendingTasks, tid)))
      else
        var pending := Remove(user.pendingTasks, tid);
        assert forall i :: NoDup(user.pendingTasks) && 0 <= i < |user.pendingTasks| && user.pendingTasks[i] == tid
                  ==> pending == user.pendingTasks[..i] + user.pendingTasks[i + 1..] by {
          forall i | NoDup(user.pendingTasks) && 0 <= i < |user.pendingTasks| && user.pendingTasks[i] == tid {
            RemoveUnique(user.pendingTasks, tid, i);
          }
        }
        assert tid !in user.pendingTasks ==> s.users[task.assignedUser := user.(pendingTasks := pending)] == s.users;
        SaveUser(s, task.assignedUser, user.(pendingTasks := pending))
  }

  /** Running `addTaskToUserPending` a second time changes nothing. */
  lemma AddTaskToUserPendingIdempotent(s: Store, tid: Id, task: Task)
    ensures AddTaskToUserPending(AddTaskToUserPending(s, tid, task), tid, task)
              == AddTaskToUserPending(s, tid, task)
  {
    var s1 := AddTaskToUserPending(s, tid, task);
    if task.assignedUser != "" && task.assignedUser in s.users {
      var a := task.assignedUser;
      var p := s1.users[a].pendingTasks;
      if task.completed {
        assert Remove(p, tid) == p;
      } else {
        assert AddToSet(p, tid) == p;
      }
      assert s1.users[a := s1.users[a].(pendingTasks := p)] == s1.users;
    }
  }

  /** `removeTaskFromAnyUser(task)`: drop task `tid` from the pending list
      of the user it is assigned to, if there is one. */
  function RemoveTaskFromAnyUser(s: Store, tid: Id, task: Task): (r: Store)
    ensures task.assignedUser == "" || task.assignedUser !in s.users ==> r == s
    ensures r.tasks == s.tasks && r.taskOrder == s.taskOrder && r.users.Keys == s.users.Keys
    ensures forall u :: u in s.users && u != task.assignedUser ==> r.users[u] == s.users[u]
    ensures task.assignedUser != "" && task.assignedUser in s.users ==>
              var before := s.users[task.assignedUser];
              var after := r.users[task.assignedUser];
              && after.name == before.name && after.email == before.email
              && tid !in after.pendingTasks
              && (forall t :: t != tid ==> (t in after.pendingTasks <==> t in before.pendingTasks))
              && (NoDup(before.pendingTasks) ==> NoDup(after.pendingTasks))
  {
    if task.assignedUser != "" then DropPending(s, task.assignedUser, tid) else s
  }

  /** `assignedUser` as the handlers read it: a string or else "". */
  function RequestedAssignee(body: TaskBody): Id {
    StringOr(body.assignedUser, "")
  }

  /** The fields a create or replace request saves, with `assignedUserName`
      computed from the requested assignee and never taken from the body. */
  function RequestFields(s: Store, body: TaskBody, deadline: Date): (r: TaskFields)
    requires RequestedAssignee(body) == "" || RequestedAssignee(body) in s.users
    ensures BuildTask(r).Some? <==> CastString(body.name).Some? && CastString(body.name).value != ""
    ensures BuildTask(r).Some? ==>
              var t := BuildTask(r).value;
              && t.name == CastString(body.name).value
              && t.deadline == deadline
              && t.description == (if body.description.Str? then body.description.s else "")
              && t.completed == ToBoolean(body.completed, Bool(false))
              && t.assignedUser == RequestedAssignee(body)
              && t.assignedUserName == (if t.assignedUser == "" then Unassigned else s.users[t.assignedUser].name)
  {
    var assignee := RequestedAssignee(body);
    TaskFields(
      body.name,
      Some(StringOr(body.description, "")),
      Some(deadline),
      Some(ToBoolean(body.completed, Bool(false))),
      Some(assignee),
      Some(if assignee != "" then s.users[assignee].name else Unassigned))
  }

  /** POST /tasks. `newId` is the id Mongoose generates for the new task and
      `toDate` the deadline coercion. */
  function CreateTask(s: Store, body: TaskBody, newId: Id, toDate: JsValue -> Option<Date>): (r: Reply<(Id, Task)>)
    requires newId !in s.tasks
    ensures r.outcome.Err? ==> r.store == s
    ensures (!Truthy(body.name) || !Truthy(body.deadline))
              ==> r.outcome == Err(400, "Task must have name and deadline")
    ensures (Truthy(body.name) && Truthy(body.deadline) && toDate(body.deadline).None?)
              ==> r.outcome == Err(400, "Invalid deadline")
    ensures (&& Truthy(body.name) && Truthy(body.deadline) && toDate(body.deadline).Some?
             && RequestedAssignee(body) != "" && RequestedAssignee(body) !in s.users)
              ==> r.outcome == Err(400, "assignedUser does not reference a valid user")
    ensures r.outcome.Ok? <==>
              (&& Truthy(body.name) && Truthy(body.deadline) && toDate(body.deadline).Some?
               && (RequestedAssignee(body) == "" || RequestedAssignee(body) in s.users)
               && CastString(body.name).Some?)
    ensures r.outcome.Ok? ==>
              var t := r.outcome.value.1;
              && r.outcome.status == 201
              && r.outcome.value.0 == newId
              && r.store.tasks == s.tasks[newId := t]
              && r.store.taskOrder == s.taskOrder + [newId]
              && r.store.users.Keys == s.users.Keys
              && t.name == CastString(body.name).value
              && t.deadline == toDate(body.deadline).value
              && t.description == StringOr(body.description, "")
              && t.completed == ToBoolean(body.completed, Bool(false))
              && t.assignedUser == RequestedAssignee(body)
              && t.assignedUserName == (if t.assignedUser == "" then Unassigned else s.users[t.assignedUser].name)
              && (t.assignedUser != "" ==> (newId in r.store.users[t.assignedUser].pendingTasks <==> !t.completed))
              && (forall u :: u in s.users && u != t.assignedUser ==> r.store.users[u] == s.users[u])
  {
    if !Truthy(body.name) || !Truthy(body.deadline) then
      Reply(Err(400, "Task must have name and deadline"), s)
    else
      var deadline := toDate(body.deadline);
      var assignee := RequestedAssignee(body);
      if deadline.None? then Reply(Err(400, "Invalid deadline"), s)
      else if assignee != "" && assignee !in s.users then
        Reply(Err(400, "assignedUser does not reference a valid user"), s)
      else
        var built := BuildTask(RequestFields(s, body, deadline.value));
        if built.None? then Reply(Err(500, "Failed to create task"), s)
        else
          var task := built.value;
          var s1 := SaveTask(s, newId, task);
          var s2 := if assignee != "" then AddTaskToUserPending(s1, newId, task) else s1;
          Reply(Ok(201, (newId, task)), s2)
  }

  /** The client's `assignedUserName` has no effect on a create. */
  lemma CreateIgnoresAssignedUserName(s: Store, body: TaskBody, newId: Id, toDate: JsValue -> Option<Date>, other: JsValue)
    requires newId !in s.tasks
    ensures CreateTask(s, body.(assignedUserName := other), newId, toDate) == CreateTask(s, body, newId, toDate)
  {
  }

  /** PUT /tasks/:id: a full replacement of task `id`, then the previous
      assignee (if it changed) stops listing the task and the new assignee
      lists it exactly when it is not completed. */
  function ReplaceTask(s: Store, id: Id, body: TaskBody, toDate: JsValue -> Option<Date>): (r: Reply<Task>)
    ensures r.outcome.Err? ==> r.store == s
    ensures (!Truthy(body.name) || !Truthy(body.deadline))
              ==> r.outcome == Err(400, "Task must have name and deadline")
    ensures (Truthy(body.name) && Truthy(body.deadline) && id !in s.tasks)
              ==> r.outcome == Err(404, "Task not found")
    ensures (&& Truthy(body.name) && Truthy(body.deadline) && id in s.tasks
             && RequestedAssignee(body) != "" && RequestedAssignee(body) !in s.users)
              ==> r.outcome == Err(400, "assignedUser does not reference a valid user")
    ensures (&& Truthy(body.name) && Truthy(body.deadline) && id in s.tasks
             && (RequestedAssignee(body) == "" || RequestedAssignee(body) in s.users)
             && toDate(body.deadline).None?)
              ==> r.outcome == Err(400, "Invalid deadline")
    ensures r.outcome.Ok? <==>
              (&& Truthy(body.name) && Truthy(body.deadline) && id in s.tasks
               && (RequestedAssignee(body) == "" || RequestedAssignee(body) in s.users)
               && toDate(body.deadline).Some? && CastString(body.name).Some?)
    ensures r.outcome.Ok? ==>
              var t := r.outcome.value;
              var prev := s.tasks[id].assignedUser;
              && r.outcome.status == 200
              && r.store.tasks == s.tasks[id := t]
              && r.store.taskOrder == s.taskOrder
              && r.store.users.Keys == s.users.Keys
              && t.name == CastString(body.name).value
              && t.deadline == toDate(body.deadline).value
              && t.description == StringOr(body.description, "")
              && t.assignedUser == RequestedAssignee(body)
              && t.assignedUserName == (if t.assignedUser == "" then Unassigned else s.users[t.assignedUser].name)
              && t.completed == ToBoolean(body.completed, Bool(false))
              && (prev != "" && prev != t.assignedUser && prev in s.users ==> id !in r.store.users[prev].pendingTasks)
              && (t.assignedUser != "" ==> (id in r.store.users[t.assignedUser].pendingTasks <==> !t.completed))
              && (forall u :: u in s.users && u != prev && u != t.assignedUser ==> r.store.users[u] == s.users[u])
  {
    if !Truthy(body.name) || !Truthy(body.deadline) then
      Reply(Err(400, "Task must have name and deadline"), s)
    else if id !in s.tasks then Reply(Err(404, "Task not found"), s)
    else
      var prev := s.tasks[id].assignedUser;
      var assignee := RequestedAssignee(body);
      if assignee != "" && assignee !in s.users then
        Reply(Err(400, "assignedUser does not reference a valid user"), s)
      else
        var deadline := toDate(body.deadline);
        if deadline.None? then Reply(Err(400, "Invalid deadline"), s)
        else
          var built := BuildTask(RequestFields(s, body, deadline.value));
          if built.None? then Reply(Err(500, "Failed to update task"), s)
          else
            var task := built.value;
            var s1 := SaveTask(s, id, task);
            var s2 := if prev != "" && prev != assignee then DropPending(s1, prev, id) else s1;
            var s3 := if assignee != "" then AddTaskToUserPending(s2, id, task)
                      else RemoveTaskFromAnyUser(s2, id, task);
            Reply(Ok(200, task), s3)
  }

  /** DELETE /tasks/:id: the assignee stops listing the task, then the task
      goes; an unknown id is a 404 that changes nothing. */
  function DeleteTask(s: Store, id: Id): (r: Reply<()>)
    ensures id !in s.tasks ==> r == Reply(Err(404, "Task not found"), s)
    ensures id in s.tasks ==>
              var a := s.tasks[id].assignedUser;
              && r.outcome == Ok(204, ())
              && r.store.tasks == s.tasks - {id}
              && id !in r.store.taskOrder
              && r.store.users.Keys == s.users.Keys
              && (a != "" && a in s.users ==> id !in r.store.users[a].pendingTasks)
              && (forall u :: u in s.users && u != a ==> r.store.users[u] == s.users[u])
  {
    if id !in s.tasks then Reply(Err(404, "Task not found"), s)
    else
      var s1 := RemoveTaskFromAnyUser(s, id, s.tasks[id]);
      Reply(Ok(204, ()), RemoveTask(s1, id))
  }
}

=== FILE: task_routes_proofs.dfy ===
/** The task-side handlers keep the collections consistent: run alone to
    completion on a consistent store, each leaves a consistent store. */
module TaskRoutesProofs {
  import opened Base
  import opened Coerce
  import opened IdLists
  import opened TaskModel
  import opened UserModel
  import opened Collections
  import opened TaskRoutes

  /** `list` is right for `u` about every task except possibly `tid`. */
  ghost predicate PendingOkBut(s: Store, u: Id, list: seq<Id>, tid: Id) {
    NoDup(list) && forall t :: t != tid ==> (t in list <==> IsPendingFor(s, t, u))
  }

  /** Users keep their ids, names and emails. */
  ghost predicate SameProfiles(s: Store, s': Store) {
    && s'.users.Keys == s.users.Keys
    && forall u :: u in s.users ==> s'.users[u].name == s.users[u].name && s'.users[u].email == s.users[u].email
  }

  /** After the task `tid` was saved, `addTaskToUserPending` repairs the
      assignee's list when it was right about every other task. */
  lemma AddPendingRepairs(s: Store, tid: Id, task: Task)
    requires tid in s.tasks && s.tasks[tid] == task
    requires task.assignedUser != "" && task.assignedUser in s.users
    requires PendingOkBut(s, task.assignedUser, s.users[task.assignedUser].pendingTasks, tid)
    ensures var r := AddTaskToUserPending(s, tid, task);
            PendingOk(r, task.assignedUser, r.users[task.assignedUser].pendingTasks)
  {
    var r := AddTaskToUserPending(s, tid, task);
    var a := task.assignedUser;
    var after := r.users[a].pendingTasks;
    assert NoDup(after) by {
      if !task.completed {
      } else {
        assert NoDup(s.users[a].pendingTasks);
      }
    }
    forall t ensures t in after <==> IsPendingFor(r, t, a) {
      if t == tid {
        if !task.completed {
          assert multiset(after)[tid] == 1;
        }
      }
    }
  }

  /** A consistent store lists a task only for its assignee, and only while
      the task is incomplete. */
  lemma ListedOnlyByAssignee(s: Store, tid: Id, u: Id)
    requires Consistent(s) && u in s.users && tid in s.users[u].pendingTasks
    ensures tid in s.tasks && s.tasks[tid].assignedUser == u
  {
    assert IsPendingFor(s, tid, u);
  }

  /** The store is consistent except that the pending lists may be wrong
      about task `tid`, which only its assignee and `other` may list. */
  ghost predicate ConsistentBut(s: Store, tid: Id, other: Id) {
    && WellFormed(s) && RecordsValid(s) && UniqueEmails(s)
    && tid in s.tasks
    && (forall t :: t in s.tasks ==> AssigneeOk(s, s.tasks[t]))
    && (forall u :: u in s.users ==> PendingOkBut(s, u, s.users[u].pendingTasks, tid))
    && (forall u :: u in s.users && u != s.tasks[tid].assignedUser && u != other ==> tid !in s.users[u].pendingTasks)
  }

  /** A write that changes only pending lists keeps every part of the
      invariant that does not mention them. */
  lemma PendingOnlyWrite(s: Store, r: Store)
    requires r.tasks == s.tasks && r.taskOrder == s.taskOrder && SameProfiles(s, r)
    ensures WellFormed(s) ==> WellFormed(r)
    ensures RecordsValid(s) ==> RecordsValid(r)
    ensures UniqueEmails(s) ==> UniqueEmails(r)
    ensures (forall t :: t in s.tasks ==> AssigneeOk(s, s.tasks[t])) ==> (forall t :: t in r.tasks ==> AssigneeOk(r, r.tasks[t]))
  {
    if RecordsValid(s) {
      forall u | u in r.users ensures ValidUser(r.users[u]) {
        assert ValidUser(s.users[u]);
      }
    }
    if forall t :: t in s.tasks ==> AssigneeOk(s, s.tasks[t]) {
      forall t | t in r.tasks ensures AssigneeOk(r, r.tasks[t]) {
        assert AssigneeOk(s, s.tasks[t]);
      }
    }
  }

  /** Users other than the task's assignee have right lists already. */
  lemma NonAssigneesOk(s: Store, tid: Id)
    requires tid in s.tasks && ConsistentBut(s, tid, s.tasks[tid].assignedUser)
    ensures forall u :: u in s.users && u != s.tasks[tid].assignedUser ==> PendingOk(s, u, s.users[u].pendingTasks)
  {
    forall u | u in s.users && u != s.tasks[tid].assignedUser ensures PendingOk(s, u, s.users[u].pendingTasks) {
      assert !IsPendingFor(s, tid, u);
      assert PendingOkBut(s, u, s.users[u].pendingTasks, tid);
    }
  }

  /** The last step of a task write: `addTaskToUserPending` for an assigned
      task (and nothing for an unassigned one) makes the store consistent. */
  lemma PlaceTaskRestores(s: Store, tid: Id)
    requires tid in s.tasks && ConsistentBut(s, tid, s.tasks[tid].assignedUser)
    ensures var t := s.tasks[tid];
            Consistent(if t.assignedUser != "" then AddTaskToUserPending(s, tid, t) else s)
  {
    var t := s.tasks[tid];
    var a := t.assignedUser;
    NonAssigneesOk(s, tid);
    if a != "" {
      var r := AddTaskToUserPending(s, tid, t);
      assert a in s.users by { assert AssigneeOk(s, t); }
      AddPendingRepairs(s, tid, t);
      assert SameProfiles(s, r);
      PendingOnlyWrite(s, r);
      forall u | u in r.users ensures PendingOk(r, u, r.users[u].pendingTasks) {
        if u != a {
          assert PendingOk(s, u, s.users[u].pendingTasks);
        }
      }
    }
  }

  /** Saving a fresh, valid, correctly named task leaves the store
      consistent but for that task. */
  lemma SaveFreshTask(s: Store, newId: Id, t: Task)
    requires Consistent(s) && newId !in s.tasks && ValidTask(t) && AssigneeOk(s, t)
    ensures ConsistentBut(SaveTask(s, newId, t), newId, t.assignedUser)
  {
    var s1 := SaveTask(s, newId, t);
    assert newId !in s.taskOrder;
    NoDupSnoc(s.taskOrder, newId);
    forall u | u in s1.users
      ensures PendingOkBut(s1, u, s1.users[u].pendingTasks, newId)
      ensures newId !in s1.users[u].pendingTasks
    {
      assert newId !in s.users[u].pendingTasks by {
        if newId in s.users[u].pendingTasks {
          ListedOnlyByAssignee(s, newId, u);
        }
      }
      forall x | x != newId ensures IsPendingFor(s1, x, u) == IsPendingFor(s, x, u) { }
    }
    forall x | x in s1.tasks ensures AssigneeOk(s1, s1.tasks[x]) {
      if x != newId {
        assert AssigneeOk(s, s.tasks[x]);
      }
    }
  }

  /** Overwriting task `id` with a valid, correctly named task leaves the
      store consistent but for that task, which its previous assignee may
      still list. */
  lemma ResaveTask(s: Store, id: Id, t: Task)
    requires Consistent(s) && id in s.tasks && ValidTask(t) && AssigneeOk(s, t)
    ensures ConsistentBut(SaveTask(s, id, t), id, s.tasks[id].assignedUser)
  {
    var prev := s.tasks[id].assignedUser;
    var s1 := SaveTask(s, id, t);
    forall u | u in s1.users
      ensures PendingOkBut(s1, u, s1.users[u].pendingTasks, id)
      ensures u != prev ==> id !in s1.users[u].pendingTasks
    {
      if u != prev {
        OthersKeepLists(s, id, u);
      }
      ResaveKeepsPendingOkBut(s, id, t, u);
    }
    ResaveKeepsAssignees(s, id, t);
  }

  /** In a consistent store only a task's assignee lists it. */
  lemma OthersKeepLists(s: Store, id: Id, u: Id)
    requires Consistent(s) && id in s.tasks && u in s.users && u != s.tasks[id].assignedUser
    ensures id !in s.users[u].pendingTasks
  {
    if id in s.users[u].pendingTasks {
      ListedOnlyByAssignee(s, id, u);
    }
  }

  /** Overwriting task `id` leaves each list right about the other tasks. */
  lemma ResaveKeepsPendingOkBut(s: Store, id: Id, t: Task, u: Id)
    requires u in s.users && PendingOk(s, u, s.users[u].pendingTasks)
    ensures var s1 := SaveTask(s, id, t);
            PendingOkBut(s1, u, s1.users[u].pendingTasks, id)
  {
    var s1 := SaveTask(s, id, t);
    forall x | x != id ensures IsPendingFor(s1, x, u) == IsPendingFor(s, x, u) { }
  }

  /** Overwriting a task with a correctly named one keeps every
      assignment right. */
  lemma ResaveKeepsAssignees(s: Store, id: Id, t: Task)
    requires Consistent(s) && ValidTask(t) && AssigneeOk(s, t)
    ensures var s1 := SaveTask(s, id, t);
            forall x :: x in s1.tasks ==> AssigneeOk(s1, s1.tasks[x])
  {
    var s1 := SaveTask(s, id, t);
    forall x | x in s1.tasks ensures AssigneeOk(s1, s1.tasks[x]) {
      if x != id {
        assert AssigneeOk(s, s.tasks[x]);
      }
    }
  }

  /** Dropping the task from its previous assignee keeps that user's list
      right about every other task. */
  lemma DropKeepsPendingOkBut(s: Store, id: Id, prev: Id)
    requires prev in s.users && PendingOkBut(s, prev, s.users[prev].pendingTasks, id)
    ensures var s2 := DropPending(s, prev, id);
            PendingOkBut(s2, prev, s2.users[prev].pendingTasks, id) && id !in s2.users[prev].pendingTasks
  {
    var s2 := DropPending(s, prev, id);
    var before := s.users[prev].pendingTasks;
    var after := s2.users[prev].pendingTasks;
    forall x | x != id ensures x in after <==> IsPendingFor(s2, x, prev) {
      assert x in after <==> x in before;
    }
  }

  /** Dropping the task from its previous assignee leaves only the new
      assignee able to list it. */
  lemma DropPrevious(s: Store, id: Id, prev: Id)
    requires ConsistentBut(s, id, prev)
    ensures var a := s.tasks[id].assignedUser;
            ConsistentBut(if prev != "" && prev != a then DropPending(s, prev, id) else s, id, a)
  {
    var a := s.tasks[id].assignedUser;
    if prev != "" && prev != a {
      var s2 := DropPending(s, prev, id);
      assert SameProfiles(s, s2);
      PendingOnlyWrite(s, s2);
      if prev in s.users {
        DropKeepsPendingOkBut(s, id, prev);
      }
      forall u | u in s2.users && u != prev
        ensures PendingOkBut(s2, u, s2.users[u].pendingTasks, id)
        ensures u != a ==> id !in s2.users[u].pendingTasks
      {
        assert s2.users[u] == s.users[u];
        assert PendingOkBut(s, u, s.users[u].pendingTasks, id);
      }
    }
  }

  /** POST /tasks keeps the store consistent. */
  lemma CreateTaskKeepsConsistent(s: Store, body: TaskBody, newId: Id, toDate: JsValue -> Option<Date>)
    requires newId !in s.tasks && Consistent(s)
    ensures Consistent(CreateTask(s, body, newId, toDate).store)
  {
    var r := CreateTask(s, body, newId, toDate);
    if r.outcome.Ok? {
      var t := r.outcome.value.1;
      assert ValidTask(t) && AssigneeOk(s, t);
      var s1 := SaveTask(s, newId, t);
      assert r.store == if t.assignedUser != "" then AddTaskToUserPending(s1, newId, t) else s1;
      SaveFreshTask(s, newId, t);
      PlaceTaskRestores(s1, newId);
    }
  }

  /** PUT /tasks/:id keeps the store consistent. */
  lemma ReplaceTaskKeepsConsistent(s: Store, id: Id, body: TaskBody, toDate: JsValue -> Option<Date>)
    requires Consistent(s)
    ensures Consistent(ReplaceTask(s, id, body, toDate).store)
  {
    var r := ReplaceTask(s, id, body, toDate);
    if r.outcome.Ok? {
      var t := r.outcome.value;
      assert ValidTask(t) && AssigneeOk(s, t);
      var prev := s.tasks[id].assignedUser;
      var s1 := SaveTask(s, id, t);
      var s2 := if prev != "" && prev != t.assignedUser then DropPending(s1, prev, id) else s1;
      assert r.store == if t.assignedUser != "" then AddTaskToUserPending(s2, id, t) else s2;
      ResaveTask(s, id, t);
      DropPrevious(s1, id, prev);
      PlaceTaskRestores(s2, id);
    }
  }

  /** DELETE /tasks/:id keeps the store consistent. */
  lemma DeleteTaskKeepsConsistent(s: Store, id: Id)
    requires Consistent(s)
    ensures Consistent(DeleteTask(s, id).store)
  {
    if id in s.tasks {
      var a := s.tasks[id].assignedUser;
      var s1 := RemoveTaskFromAnyUser(s, id, s.tasks[id]);
      assert DeleteTask(s, id).store == RemoveTask(s1, id);
      assert SameProfiles(s, s1);
      PendingOnlyWrite(s, s1);
      forall u | u in s1.users
        ensures PendingOkBut(s1, u, s1.users[u].pendingTasks, id) && id !in s1.users[u].pendingTasks
      {
        UnlistedAfterRemoval(s, id, u);
      }
      RemoveUnlistedTask(s1, id);
    }
  }

  /** After `removeTaskFromAnyUser`, no user lists the task and every list
      is still right about the other tasks. */
  lemma UnlistedAfterRemoval(s: Store, id: Id, u: Id)
    requires Consistent(s) && id in s.tasks && u in s.users
    ensures var s1 := RemoveTaskFromAnyUser(s, id, s.tasks[id]);
            PendingOkBut(s1, u, s1.users[u].pendingTasks, id) && id !in s1.users[u].pendingTasks
  {
    var a := s.tasks[id].assignedUser;
    var s1 := RemoveTaskFromAnyUser(s, id, s.tasks[id]);
    assert SaveTask(s, id, s.tasks[id]).tasks == s.tasks;
    ResaveKeepsPendingOkBut(s, id, s.tasks[id], u);
    if u != a {
      OthersKeepLists(s, id, u);
      assert s1.users[u] == s.users[u];
    } else {
      DropKeepsPendingOkBut(s, id, a);
    }
  }

  /** Removing a task nobody lists, from a store consistent about every
      other task, leaves a consistent store. */
  lemma RemoveUnlistedTask(s: Store, id: Id)
    requires WellFormed(s) && RecordsValid(s) && UniqueEmails(s)
    requires forall t :: t in s.tasks ==> AssigneeOk(s, s.tasks[t])
    requires forall u :: u in s.users ==> PendingOkBut(s, u, s.users[u].pendingTasks, id) && id !in s.users[u].pendingTasks
    ensures Consistent(RemoveTask(s, id))
  {
    var r := RemoveTask(s, id);
    forall u | u in r.users ensures PendingOk(r, u, r.users[u].pendingTasks) {
      assert PendingOkBut(s, u, s.users[u].pendingTasks, id);
      forall x | x != id ensures IsPendingFor(r, x, u) == IsPendingFor(s, x, u) { }
    }
    forall x | x in r.tasks ensures AssigneeOk(r, r.tasks[x]) {
      assert AssigneeOk(s, s.tasks[x]);
    }
  }
}

=== FILE: user_model.dfy ===
/** The User record of models/user.js: its fields, what a save requires of
    them and the default pending list. Email uniqueness is a property of the
    collection and lives with the store. */
module UserModel {
  import opened Base
  import opened Coerce

  /** A stored user. Its id is the key it is stored under; `dateCreated` is
      not modelled. `pendingTasks` lists task ids as strings. */
  datatype User = User(name: string, email: string, pendingTasks: seq<Id>)

  /** The values handed to `new User({...})` or assigned before `save()`;
      name and email are the raw request values Mongoose casts at save time. */
  datatype UserFields = UserFields(name: JsValue, email: JsValue, pendingTasks: Option<seq<Id>>)

  /** What every stored user satisfies: non-empty name and email. */
  predicate ValidUser(u: User) {
    u.name != "" && u.email != ""
  }

  /** Document validation at `save()`: name and email are cast to strings
      and must be non-empty; an omitted pending list defaults to empty. */
  function BuildUser(f: UserFields): (r: Option<User>)
    ensures r.Some? <==> (&& CastString(f.name).Some? && CastString(f.name).value != ""
                          && CastString(f.email).Some? && CastString(f.email).value != "")
    ensures r.Some? ==> ValidUser(r.value)
    ensures r.Some? ==> r.value.name == CastString(f.name).value && r.value.email == CastString(f.email).value
    ensures r.Some? && f.pendingTasks.None? ==> r.value.pendingTasks == []
    ensures r.Some? ==> forall p :: f.pendingTasks == Some(p) ==> r.value.pendingTasks == p
  {
    var name := CastString(f.name);
    var email := CastString(f.email);
    if name.None? || name.value == "" || email.None? || email.value == "" then None
    else Some(User(name.value, email.value, if f.pendingTasks.Some? then f.pendingTasks.value else []))
  }

  /** A user without a name, or without an email, is never saved. */
  lemma NameAndEmailRequired(f: UserFields)
    requires f.name.Undefined? || f.name == Str("") || f.email.Undefined? || f.email == Str("")
    ensures BuildUser(f).None?
  {
  }
}

=== FILE: user_routes.dfy ===
/** routes/users.js: the user-side helpers `assignTaskToUser` and
    `unassignTask`, and the relationship logic of the create, replace and
    delete handlers. The `user` a helper is given is an in-memory copy that
    the helper updates and writes back whole; it is passed by value here and
    the updated copy is returned, so a copy that has gone stale stays stale. */
module UserRoutes {
  import opened Base
  import opened Coerce
  import opened IdLists
  import opened TaskModel
  import opened UserModel
  import opened Collections

  /** `{ skipped: true }` or `{ updated: true }` */
  datatype SyncStatus = Skipped | Updated

  datatype AssignStep = AssignStep(status: SyncStatus, store: Store, user: User)

  datatype UnassignStep = UnassignStep(status: SyncStatus, store: Store)

  /** A user request body as the router decodes it. `pendingTasks` is `None`
      when the field is absent or not an array. */
  datatype UserBody = UserBody(name: JsValue, email: JsValue, pendingTasks: Option<seq<Id>>)

  /** `assignTaskToUser(tid, user)` where `user` is the caller's copy of user
      `uid`: a missing task is skipped; otherwise the task leaves a different
      previous assignee's list, is assigned to `uid` under the copy's name,
      and the copy (listing the task iff it is pending) is written back. */
  function AssignTaskToUser(s: Store, tid: Id, uid: Id, user: User): (r: AssignStep)
    ensures tid !in s.tasks ==> r == AssignStep(Skipped, s, user)
    ensures r.store.tasks.Keys == s.tasks.Keys && r.store.taskOrder == s.taskOrder
    ensures r.user.name == user.name && r.user.email == user.email
    ensures tid in s.tasks ==>
              var task := s.tasks[tid];
              var prev := task.assignedUser;
              && r.status == Updated
              && r.store.tasks == s.tasks[tid := task.(assignedUser := uid, assignedUserName := user.name)]
              && r.store.users.Keys == s.users.Keys + {uid}
              && r.store.users[uid] == r.user
              && (forall t :: t != tid ==> (t in r.user.pendingTasks <==> t in user.pendingTasks))
              && (!task.completed ==> NoDup(r.user.pendingTasks) && multiset(r.user.pendingTasks)[tid] == 1)
              && (task.completed ==> tid !in r.user.pendingTasks)
              && (NoDup(user.pendingTasks) ==> NoDup(r.user.pendingTasks))
              && (prev != "" && prev != uid && prev in s.users ==>
                    && tid !in r.store.users[prev].pendingTasks
                    && r.store.users[prev].name == s.users[prev].name
                    && r.store.users[prev].email == s.users[prev].email
                    && (forall t :: t != tid ==>
                          (t in r.store.users[prev].pendingTasks <==> t in s.users[prev].pendingTasks))
                    && (NoDup(s.users[prev].pendingTasks) ==> NoDup(r.store.users[prev].pendingTasks)))
              && (forall u :: u in s.users && u != uid && u != prev ==> r.store.users[u] == s.users[u])
  {
    if tid !in s.tasks then AssignStep(Skipped, s, user)
    else
      var task := s.tasks[tid];
      var s1 := if task.assignedUser != "" && task.assignedUser != uid
                then DropPending(s, task.assignedUser, tid) else s;
      var s2 := SaveTask(s1, tid, task.(assignedUser := uid, assignedUserName := user.name));
      var pending := if !task.completed then AddToSet(user.pendingTasks, tid)
                     else Remove(user.pendingTasks, tid);
      var user' := user.(pendingTasks := pending);
      AssignStep(Updated, SaveUser(s2, uid, user'), user')
  }

  /** Assigning a task that is already assigned to `uid` under the copy's
      name, with a copy that is stored and already agrees with the task's
      status, is a no-op. */
  lemma AssignSettled(s: Store, tid: Id, uid: Id, user: User)
    requires tid in s.tasks && s.tasks[tid].assignedUser == uid && s.tasks[tid].assignedUserName == user.name
    requires uid in s.users && s.users[uid] == user
    requires s.tasks[tid].completed ==> tid !in user.pendingTasks
    requires !s.tasks[tid].completed ==> tid in user.pendingTasks && NoDup(user.pendingTasks)
    ensures AssignTaskToUser(s, tid, uid, user) == AssignStep(Updated, s, user)
  {
    var task := s.tasks[tid];
    assert task.(assignedUser := uid, assignedUserName := user.name) == task;
    var p := user.pendingTasks;
    var p' := if !task.completed then AddToSet(p, tid) else Remove(p, tid);
    assert p' == p;
    assert user.(pendingTasks := p') == user;
    assert s.tasks[tid := task] == s.tasks;
    assert s.users[uid := user] == s.users;
  }

  /** Calling `assignTaskToUser` again with the copy the first call left
      behind changes nothing. */
  lemma AssignTaskToUserIdempotent(s: Store, tid: Id, uid: Id, user: User)
    ensures var first := AssignTaskToUser(s, tid, uid, user);
            AssignTaskToUser(first.store, tid, uid, first.user) == first
  {
    var first := AssignTaskToUser(s, tid, uid, user);
    if tid in s.tasks {
      AssignSettled(first.store, tid, uid, first.user);
    }
  }

  /** Calling `assignTaskToUser` twice with the same, unchanged copy leaves
      the same collections as calling it once. */
  lemma AssignTaskToUserRepeatSameCopy(s: Store, tid: Id, uid: Id, user: User)
    ensures var first := AssignTaskToUser(s, tid, uid, user);
            AssignTaskToUser(first.store, tid, uid, user).store == first.store
  {
    var first := AssignTaskToUser(s, tid, uid, user);
    if tid in s.tasks {
      var s1 := first.store;
      var task := s1.tasks[tid];
      assert task.assignedUser == uid && task.assignedUserName == user.name;
      assert task.completed == s.tasks[tid].completed;
      assert task.(assignedUser := uid, assignedUserName := user.name) == task;
      assert s1.tasks[tid := task] == s1.tasks;
      var again := SaveTask(s1, tid, task);
      assert again == s1;
      assert s1.users[uid := first.user] == s1.users;
    }
  }

  /** `unassignTask(tid)`: a missing task is skipped; otherwise the current
      assignee (if any) stops listing it and the task becomes unassigned. */
  function UnassignTask(s: Store, tid: Id): (r: UnassignStep)
    ensures tid !in s.tasks ==> r == UnassignStep(Skipped, s)
    ensures r.store.tasks.Keys == s.tasks.Keys && r.store.taskOrder == s.taskOrder
    ensures r.store.users.Keys == s.users.Keys
    ensures forall u :: u in s.users ==>
              r.store.users[u].name == s.users[u].name && r.store.users[u].email == s.users[u].email
    ensures tid in s.tasks ==>
              var task := s.tasks[tid];
              var a := task.assignedUser;
              && r.status == Updated
              && r.store.tasks == s.tasks[tid := task.(assignedUser := "", assignedUserName := Unassigned)]
              && (a != "" && a in s.users ==>
                    && tid !in r.store.users[a].pendingTasks
                    && (forall t :: t != tid ==> (t in r.store.users[a].pendingTasks <==> t in s.users[a].pendingTasks))
                    && (NoDup(s.users[a].pendingTasks) ==> NoDup(r.store.users[a].pendingTasks)))
              && (a == "" ==> r.store.users == s.users)
              && (forall u :: u in s.users && u != a ==> r.store.users[u] == s.users[u])
  {
    if tid !in s.tasks then UnassignStep(Skipped, s)
    else
      var task := s.tasks[tid];
      var s1 := if task.assignedUser != "" then DropPending(s, task.assignedUser, tid) else s;
      UnassignStep(Updated, SaveTask(s1, tid, task.(assignedUser := "", assignedUserName := Unassigned)))
  }

  /** `for (const tid of tids) await assignTaskToUser(tid, user)`, the copy
      threaded from one call to the next. */
  function AssignEach(s: Store, tids: seq<Id>, uid: Id, user: User): (r: (Store, User))
    ensures r.0.tasks.Keys == s.tasks.Keys && r.0.taskOrder == s.taskOrder
    ensures s.users.Keys <= r.0.users.Keys <= s.users.Keys + {uid}
    ensures r.1.name == user.name && r.1.email == user.email
    ensures forall t :: t in s.tasks && t !in tids ==> r.0.tasks[t] == s.tasks[t]
    ensures forall t :: t in s.tasks && t in tids ==>
              r.0.tasks[t] == s.tasks[t].(assignedUser := uid, assignedUserName := user.name)
    ensures forall u :: u in s.users && u != uid ==>
              r.0.users[u].name == s.users[u].name && r.0.users[u].email == s.users[u].email
    ensures uid in s.users && s.users[uid] == user ==> r.0.users[uid] == r.1
    ensures (uid in s.users && s.users[uid].name == user.name && s.users[uid].email == user.email)
              ==> r.0.users[uid].name == user.name && r.0.users[uid].email == user.email
    decreases |tids|
  {
    if tids == [] then (s, user)
    else
      var step := AssignTaskToUser(s, tids[0], uid, user);
      AssignEach(step.store, tids[1..], uid, step.user)
  }

  /** `for (const tid of tids) await unassignTask(tid)` */
  function UnassignEach(s: Store, tids: seq<Id>): (r: Store)
    ensures r.tasks.Keys == s.tasks.Keys && r.taskOrder == s.taskOrder && r.users.Keys == s.users.Keys
    ensures forall u :: u in s.users ==>
              r.users[u].name == s.users[u].name && r.users[u].email == s.users[u].email
    ensures forall t :: t in s.tasks && t !in tids ==> r.tasks[t] == s.tasks[t]
    ensures forall t :: t in s.tasks && t in tids ==>
              r.tasks[t] == s.tasks[t].(assignedUser := "", assignedUserName := Unassigned)
    decreases |tids|
  {
    if tids == [] then s
    else UnassignEach(UnassignTask(s, tids[0]).store, tids[1..])
  }

  /** The listed ids that name existing, incomplete tasks, in list order. */
  function ListedPending(s: Store, tids: seq<Id>): (r: seq<Id>)
    ensures forall t :: t in r <==> t in tids && t in s.tasks && !s.tasks[t].completed
  {
    if tids == [] then []
    else if tids[0] in s.tasks && !s.tasks[tids[0]].completed then [tids[0]] + ListedPending(s, tids[1..])
    else ListedPending(s, tids[1..])
  }

  /** The success path of a user create: save the new user, then assign
      each listed task to it, writing the copy back each time. */
  function SaveAndAssign(s: Store, newId: Id, user: User, tids: seq<Id>): (r: Store)
    requires newId !in s.users
    ensures r.users.Keys == s.users.Keys + {newId} && r.tasks.Keys == s.tasks.Keys
    ensures r.users[newId].name == user.name && r.users[newId].email == user.email
    ensures forall t :: t in s.tasks && t in tids
              ==> r.tasks[t].assignedUser == newId && r.tasks[t].assignedUserName == user.name
    ensures forall t :: t in s.tasks && t !in tids ==> r.tasks[t] == s.tasks[t]
  {
    var s1 := SaveUser(s, newId, user);
    assert newId in s1.users && s1.users[newId] == user && s1.tasks == s.tasks;
    if |tids| > 0 then AssignEach(s1, tids, newId, user).0 else s1
  }

  /** POST /users. `newId` is the id Mongoose generates for the new user.
      The user is saved with no pending tasks, each listed task is assigned
      to it in list order, and the reloaded user is returned. */
  function CreateUser(s: Store, body: UserBody, newId: Id): (r: Reply<(Id, User)>)
    requires newId != "" && newId !in s.users
    ensures r.outcome.Err? ==> r.store == s
    ensures (!Truthy(body.name) || !Truthy(body.email))
              ==> r.outcome == Err(400, "User must have name and email")
    ensures (&& Truthy(body.name) && Truthy(body.email)
             && BuildUser(UserFields(body.name, body.email, Some([]))).Some?
             && EmailTaken(s, CastString(body.email).value, newId))
              ==> r.outcome == Err(400, "A user with the given email already exists")
    ensures r.outcome.Ok? <==>
              (&& Truthy(body.name) && Truthy(body.email)
               && BuildUser(UserFields(body.name, body.email, Some([]))).Some?
               && !EmailTaken(s, CastString(body.email).value, newId))
    ensures r.outcome.Ok? ==>
              var u := r.outcome.value.1;
              && r.outcome.status == 201
              && r.outcome.value.0 == newId
              && r.store.users.Keys == s.users.Keys + {newId}
              && r.store.users[newId] == u
              && u.name == CastString(body.name).value
              && u.email == CastString(body.email).value
              && r.store.tasks.Keys == s.tasks.Keys
              && (forall t :: t in s.tasks && body.pendingTasks.Some? && t in body.pendingTasks.value
                    ==> r.store.tasks[t].assignedUser == newId && r.store.tasks[t].assignedUserName == u.name)
              && (forall t :: t in s.tasks && !(body.pendingTasks.Some? && t in body.pendingTasks.value)
                    ==> r.store.tasks[t] == s.tasks[t])
  {
    if !Truthy(body.name) || !Truthy(body.email) then
      Reply(Err(400, "User must have name and email"), s)
    else
      var built := BuildUser(UserFields(body.name, body.email, Some([])));
      if built.None? then Reply(Err(500, "Failed to create user"), s)
      else if EmailTaken(s, built.value.email, newId) then
        Reply(Err(400, "A user with the given email already exists"), s)
      else
        var tids := if body.pendingTasks.Some? then body.pendingTasks.value else [];
        var s2 := SaveAndAssign(s, newId, built.value, tids);
        Reply(Ok(201, (newId, s2.users[newId])), s2)
  }

  /** The reassignment in a user replace: unassign the tasks assigned to
      `id` that are not listed, then assign the listed ones with the copy
      `user`; returns the store and the copy as last written back. */
  function ReassignListed(s: Store, id: Id, user: User, listed: seq<Id>): (r: (Store, User))
    requires id in s.users
    ensures r.0.users.Keys == s.users.Keys && r.0.tasks.Keys == s.tasks.Keys && r.0.taskOrder == s.taskOrder
    ensures r.1.name == user.name && r.1.email == user.email
    ensures forall t :: t in s.tasks && t in s.taskOrder && s.tasks[t].assignedUser == id && t !in listed
              ==> r.0.tasks[t] == s.tasks[t].(assignedUser := "", assignedUserName := Unassigned)
    ensures forall t :: t in s.tasks && t in listed
              ==> r.0.tasks[t] == s.tasks[t].(assignedUser := id, assignedUserName := user.name)
    ensures forall t :: t in s.tasks && t !in listed && !(t in s.taskOrder && s.tasks[t].assignedUser == id)
              ==> r.0.tasks[t] == s.tasks[t]
    ensures forall u :: u in s.users && u != id ==>
              r.0.users[u].name == s.users[u].name && r.0.users[u].email == s.users[u].email
  {
    var dropped := Without(FindAssigned(s, id, false), listed);
    assert forall t :: t in dropped <==> t in s.taskOrder && Matches(s, t, id, false) && t !in listed;
    AssignEach(UnassignEach(s, dropped), listed, id, user)
  }

  /** The task-side half of a user replace, run after the user `id` was
      saved as `user` (routes/users.js, from the list normalisation to the
      final save): unassign the user's tasks that are not listed, assign the
      listed ones with the copy `user`, then overwrite the pending list with
      the user's assigned, incomplete tasks and save the copy. */
  function SyncListedTasks(s: Store, id: Id, user: User, listed: seq<Id>): (r: Store)
    requires id in s.users
    ensures r.users.Keys == s.users.Keys && r.tasks.Keys == s.tasks.Keys && r.taskOrder == s.taskOrder
    ensures r.users[id] == user.(pendingTasks := r.users[id].pendingTasks)
    ensures forall t :: t in r.users[id].pendingTasks <==> t in r.taskOrder && IsPendingFor(r, t, id)
    ensures NoDup(s.taskOrder) ==> NoDup(r.users[id].pendingTasks)
    ensures forall t :: t in s.tasks && t in s.taskOrder && s.tasks[t].assignedUser == id && t !in listed
              ==> r.tasks[t] == s.tasks[t].(assignedUser := "", assignedUserName := Unassigned)
    ensures forall t :: t in s.tasks && t in listed
              ==> r.tasks[t] == s.tasks[t].(assignedUser := id, assignedUserName := user.name)
    ensures forall t :: t in s.tasks && t !in listed && !(t in s.taskOrder && s.tasks[t].assignedUser == id)
              ==> r.tasks[t] == s.tasks[t]
    ensures forall u :: u in s.users && u != id ==>
              r.users[u].name == s.users[u].name && r.users[u].email == s.users[u].email
  {
    var (s3, user3) := ReassignListed(s, id, user, listed);
    SaveUser(s3, id, user3.(pendingTasks := FindAssigned(s3, id, true)))
  }

  /** The success path of a user replace: save name and email, then
      reassign the listed tasks and recompute the pending list. */
  function SaveAndSync(s: Store, id: Id, user: User, listed: seq<Id>): (r: Store)
    requires id in s.users
    ensures r.users.Keys == s.users.Keys && r.tasks.Keys == s.tasks.Keys && r.taskOrder == s.taskOrder
    ensures r.users[id].name == user.name && r.users[id].email == user.email
    ensures forall t :: t in r.users[id].pendingTasks <==> t in r.taskOrder && IsPendingFor(r, t, id)
    ensures NoDup(s.taskOrder) ==> NoDup(r.users[id].pendingTasks)
    ensures forall t :: t in s.tasks && t in s.taskOrder && s.tasks[t].assignedUser == id && t !in listed
              ==> r.tasks[t].assignedUser == "" && r.tasks[t].assignedUserName == Unassigned
    ensures forall t :: t in s.tasks && t in listed
              ==> r.tasks[t].assignedUser == id && r.tasks[t].assignedUserName == user.name
    ensures forall t :: t in s.tasks && t !in listed && !(t in s.taskOrder && s.tasks[t].assignedUser == id)
              ==> r.tasks[t] == s.tasks[t]
    ensures forall u :: u in s.users && u != id ==>
              r.users[u].name == s.users[u].name && r.users[u].email == s.users[u].email
  {
    var s1 := SaveUser(s, id, user);
    assert s1.tasks == s.tasks && s1.taskOrder == s.taskOrder;
    SyncListedTasks(s1, id, user, listed)
  }

  /** PUT /users/:id. Name and email are saved first; the supplied list is
      then treated as the set of tasks the user should hold: tasks assigned
      to the user but not listed are unassigned, listed tasks are assigned
      with the copy loaded at the start, and finally the pending list is
      recomputed from the tasks. */
  function ReplaceUser(s: Store, id: Id, body: UserBody): (r: Reply<User>)
    ensures r.outcome.Err? ==> r.store == s
    ensures (!Truthy(body.name) || !Truthy(body.email))
              ==> r.outcome == Err(400, "User must have name and email")
    ensures (Truthy(body.name) && Truthy(body.email) && id !in s.users)
              ==> r.outcome == Err(404, "User not found")
    ensures (&& Truthy(body.name) && Truthy(body.email) && id in s.users
             && BuildUser(UserFields(body.name, body.email, None)).Some?
             && EmailTaken(s, CastString(body.email).value, id))
              ==> r.outcome == Err(400, "A user with the given email already exists")
    ensures r.outcome.Ok? <==>
              (&& Truthy(body.name) && Truthy(body.email) && id in s.users
               && BuildUser(UserFields(body.name, body.email, None)).Some?
               && !EmailTaken(s, CastString(body.email).value, id))
    ensures r.outcome.Ok? ==>
              var u := r.outcome.value;
              var listed := if body.pendingTasks.Some? then body.pendingTasks.value else [];
              && r.outcome.status == 200
              && r.store.users.Keys == s.users.Keys
              && r.store.users[id] == u
              && u.name == CastString(body.name).value
              && u.email == CastString(body.email).value
              && r.store.tasks.Keys == s.tasks.Keys
              && (forall t :: t in u.pendingTasks <==> t in r.store.taskOrder && IsPendingFor(r.store, t, id))
              && (NoDup(s.taskOrder) ==> NoDup(u.pendingTasks))
              && (forall t :: t in s.tasks && t in s.taskOrder && s.tasks[t].assignedUser == id && t !in listed
                    ==> r.store.tasks[t].assignedUser == "" && r.store.tasks[t].assignedUserName == Unassigned)
              && (forall t :: t in s.tasks && t in listed
                    ==> r.store.tasks[t].assignedUser == id && r.store.tasks[t].assignedUserName == u.name)
              && (forall t :: t in s.tasks && t !in listed && !(t in s.taskOrder && s.tasks[t].assignedUser == id)
                    ==> r.store.tasks[t] == s.tasks[t])
              && (forall u' :: u' in s.users && u' != id ==>
                    r.store.users[u'].name == s.users[u'].name && r.store.users[u'].email == s.users[u'].email)
  {
    if !Truthy(body.name) || !Truthy(body.email) then
      Reply(Err(400, "User must have name and email"), s)
    else if id !in s.users then Reply(Err(404, "User not found"), s)
    else
      var built := BuildUser(UserFields(body.name, body.email, Some(s.users[id].pendingTasks)));
      assert built.Some? == BuildUser(UserFields(body.name, body.email, None)).Some?;
      if built.None? then Reply(Err(500, "Failed to update user"), s)
      else if EmailTaken(s, built.value.email, id) then
        Reply(Err(400, "A user with the given email already exists"), s)
      else
        var listed := if body.pendingTasks.Some? then body.pendingTasks.value else [];
        var s2 := SaveAndSync(s, id, built.value, listed);
        Reply(Ok(200, s2.users[id]), s2)
  }

  /** DELETE /users/:id: every task assigned to the user is unassigned, then
      the user goes; an unknown id is a 404 that changes nothing. */
  function DeleteUser(s: Store, id: Id): (r: Reply<()>)
    ensures id !in s.users ==> r == Reply(Err(404, "User not found"), s)
    ensures id in s.users ==>
              && r.outcome == Ok(204, ())
              && r.store.users.Keys == s.users.Keys - {id}
              && r.store.tasks.Keys == s.tasks.Keys
              && (forall t :: t in s.tasks && t in s.taskOrder && s.tasks[t].assignedUser == id
                    ==> r.store.tasks[t] == s.tasks[t].(assignedUser := "", assignedUserName := Unassigned))
              && (forall t :: t in s.tasks && s.tasks[t].assignedUser != id ==> r.store.tasks[t] == s.tasks[t])
              && (forall u :: u in s.users && u != id ==> r.store.users[u] == s.users[u])
  {
    if id !in s.users then Reply(Err(404, "User not found"), s)
    else
      var current := FindAssigned(s, id, false);
      UnassignEachKeepsOthers(s, current, id);
      var s1 := UnassignEach(s, current);
      Reply(Ok(204, ()), RemoveUser(s1, id))
  }

  /** Unassigning tasks held by `id` (or by no one) leaves every other
      user's record as it was. */
  lemma {:induction false} UnassignEachKeepsOthers(s: Store, tids: seq<Id>, id: Id)
    requires forall t :: t in tids && t in s.tasks ==> s.tasks[t].assignedUser == id || s.tasks[t].assignedUser == ""
    ensures forall u :: u in s.users && u != id ==> UnassignEach(s, tids).users[u] == s.users[u]
    decreases |tids|
  {
    if tids != [] {
      var s1 := UnassignTask(s, tids[0]).store;
      forall t | t in tids[1..] && t in s1.tasks
        ensures s1.tasks[t].assignedUser == id || s1.tasks[t].assignedUser == ""
      {
        assert t in tids;
      }
      UnassignEachKeepsOthers(s1, tids[1..], id);
    }
  }
}

=== FILE: user_routes_proofs.dfy ===
/** The user-side handlers keep the collections consistent, and a created
    user's pending list is exactly the listed tasks that were pending. The
    replace handler writes back a copy of the user loaded before it edited
    that user's pending list, so its proof goes through a weaker invariant
    that says nothing about that one user until the final recomputation. */
module UserRoutesProofs {
  import opened Base
  import opened IdLists
  import opened TaskModel
  import opened UserModel
  import opened Collections
  import opened UserRoutes

  /** Consistent, except that user `x`'s pending list and the names stored
      on `x`'s tasks may be out of date. */
  ghost predicate ConsistentExcept(s: Store, x: Id) {
    && WellFormed(s) && RecordsValid(s) && UniqueEmails(s)
    && x in s.users
    && (forall t :: t in s.tasks && s.tasks[t].assignedUser != x ==> AssigneeOk(s, s.tasks[t]))
    && (forall u :: u in s.users && u != x ==> PendingOk(s, u, s.users[u].pendingTasks))
  }

  /** Every task assigned to `x` carries `x`'s current name. */
  ghost predicate NamesOkFor(s: Store, x: Id)
    requires x in s.users
  {
    forall t :: t in s.tasks && s.tasks[t].assignedUser == x ==> s.tasks[t].assignedUserName == s.users[x].name
  }

  /** The three parts together are the whole invariant. */
  lemma ExceptCloses(s: Store, x: Id)
    requires ConsistentExcept(s, x) && NamesOkFor(s, x)
    ensures PendingOk(s, x, s.users[x].pendingTasks) <==> Consistent(s)
  {
    forall t | t in s.tasks ensures AssigneeOk(s, s.tasks[t]) {
      if s.tasks[t].assignedUser == x {
        assert x != "";
      }
    }
  }

  /** A consistent store satisfies the weaker invariant for any user. */
  lemma ConsistentIsExcept(s: Store, x: Id)
    requires Consistent(s) && x in s.users
    ensures ConsistentExcept(s, x) && NamesOkFor(s, x) && PendingOk(s, x, s.users[x].pendingTasks)
  {
    forall t | t in s.tasks && s.tasks[t].assignedUser == x
      ensures s.tasks[t].assignedUserName == s.users[x].name
    {
      assert AssigneeOk(s, s.tasks[t]);
    }
  }

  // ---------------------------------------------------------------------
  // unassignTask
  // ---------------------------------------------------------------------

  /** `unassignTask` keeps any user's pending list right. */
  lemma UnassignKeepsPendingOk(s: Store, tid: Id, u: Id)
    requires "" !in s.users && u in s.users && PendingOk(s, u, s.users[u].pendingTasks)
    ensures var r := UnassignTask(s, tid).store;
            PendingOk(r, u, r.users[u].pendingTasks)
  {
    var r := UnassignTask(s, tid).store;
    if tid in s.tasks {
      var a := s.tasks[tid].assignedUser;
      var before := s.users[u].pendingTasks;
      var after := r.users[u].pendingTasks;
      forall t | t != tid ensures IsPendingFor(r, t, u) == IsPendingFor(s, t, u) { }
      assert !IsPendingFor(r, tid, u);
      if u == a {
        assert NoDup(after);
        forall t ensures t in after <==> IsPendingFor(r, t, u) {
          if t != tid {
            assert t in after <==> t in before;
          }
        }
      } else {
        assert after == before;
        assert !IsPendingFor(s, tid, u);
      }
    }
  }

  /** `unassignTask` keeps the weaker invariant, the names on `x`'s tasks,
      and `x`'s pending list if that was right. */
  lemma UnassignKeepsExcept(s: Store, tid: Id, x: Id)
    requires ConsistentExcept(s, x)
    ensures var r := UnassignTask(s, tid).store;
            && ConsistentExcept(r, x)
            && (NamesOkFor(s, x) ==> NamesOkFor(r, x))
            && (PendingOk(s, x, s.users[x].pendingTasks) ==> PendingOk(r, x, r.users[x].pendingTasks))
  {
    var r := UnassignTask(s, tid).store;
    if tid in s.tasks {
      forall u | u in r.users && u != x ensures PendingOk(r, u, r.users[u].pendingTasks) {
        UnassignKeepsPendingOk(s, tid, u);
      }
      if PendingOk(s, x, s.users[x].pendingTasks) {
        UnassignKeepsPendingOk(s, tid, x);
      }
      UnassignKeepsAssignees(s, tid, x);
    }
  }

  /** `unassignTask` keeps every assignment that was right right, and the
      unassigned task is named "unassigned". */
  lemma UnassignKeepsAssignees(s: Store, tid: Id, x: Id)
    requires ConsistentExcept(s, x) && tid in s.tasks
    ensures var r := UnassignTask(s, tid).store;
            && RecordsValid(r) && UniqueEmails(r) && WellFormed(r)
            && (forall t :: t in r.tasks && r.tasks[t].assignedUser != x ==> AssigneeOk(r, r.tasks[t]))
            && (NamesOkFor(s, x) ==> NamesOkFor(r, x))
  {
    var r := UnassignTask(s, tid).store;
    forall u | u in r.users ensures ValidUser(r.users[u]) {
      assert ValidUser(s.users[u]);
    }
    forall t | t in r.tasks && r.tasks[t].assignedUser != x ensures AssigneeOk(r, r.tasks[t]) {
      if t != tid {
        assert AssigneeOk(s, s.tasks[t]);
      }
    }
  }

  /** `unassignTask` over a list keeps the weaker invariant, the names on
      `x`'s tasks, and `x`'s pending list if that was right. */
  lemma {:induction false} UnassignEachKeepsExcept(s: Store, tids: seq<Id>, x: Id)
    requires ConsistentExcept(s, x)
    ensures var r := UnassignEach(s, tids);
            && ConsistentExcept(r, x)
            && (NamesOkFor(s, x) ==> NamesOkFor(r, x))
            && (PendingOk(s, x, s.users[x].pendingTasks) ==> PendingOk(r, x, r.users[x].pendingTasks))
    decreases |tids|
  {
    if tids != [] {
      UnassignKeepsExcept(s, tids[0], x);
      UnassignEachKeepsExcept(UnassignTask(s, tids[0]).store, tids[1..], x);
    }
  }

  // ---------------------------------------------------------------------
  // assignTaskToUser
  // ---------------------------------------------------------------------

  /** `assignTaskToUser` for `x` keeps right the pending list of every user
      other than `x`. */
  lemma AssignKeepsOthersPending(s: Store, tid: Id, x: Id, user: User, u: Id)
    requires "" !in s.users && u in s.users && u != x && PendingOk(s, u, s.users[u].pendingTasks)
    ensures var r := AssignTaskToUser(s, tid, x, user).store;
            PendingOk(r, u, r.users[u].pendingTasks)
  {
    var r := AssignTaskToUser(s, tid, x, user).store;
    if tid in s.tasks {
      var prev := s.tasks[tid].assignedUser;
      var before := s.users[u].pendingTasks;
      var after := r.users[u].pendingTasks;
      forall t | t != tid ensures IsPendingFor(r, t, u) == IsPendingFor(s, t, u) { }
      assert !IsPendingFor(r, tid, u);
      if u == prev {
        assert NoDup(after);
        forall t ensures t in after <==> IsPendingFor(r, t, u) {
          if t != tid {
            assert t in after <==> t in before;
          }
        }
      } else {
        assert after == before;
        assert !IsPendingFor(s, tid, u);
      }
    }
  }

  /** A copy that was right about `x`'s pending tasks is still right after
      `assignTaskToUser` has updated it. */
  lemma AssignKeepsCopyPending(s: Store, tid: Id, x: Id, user: User)
    requires PendingOk(s, x, user.pendingTasks)
    ensures var r := AssignTaskToUser(s, tid, x, user);
            PendingOk(r.store, x, r.user.pendingTasks)
  {
    var r := AssignTaskToUser(s, tid, x, user);
    if tid in s.tasks {
      forall t | t != tid ensures IsPendingFor(r.store, t, x) == IsPendingFor(s, t, x) { }
      forall t ensures t in r.user.pendingTasks <==> IsPendingFor(r.store, t, x) {
        if t == tid {
          if !s.tasks[tid].completed {
            assert multiset(r.user.pendingTasks)[tid] == 1;
          }
        } else {
          assert t in r.user.pendingTasks <==> t in user.pendingTasks;
        }
      }
    }
  }

  /** `assignTaskToUser` for `x`, with a copy whose name and email are
      `x`'s, changes no user's name or email. */
  lemma AssignKeepsProfiles(s: Store, tid: Id, x: Id, user: User)
    requires x in s.users && user.name == s.users[x].name && user.email == s.users[x].email
    ensures var r := AssignTaskToUser(s, tid, x, user).store;
            && r.users.Keys == s.users.Keys
            && forall u :: u in s.users ==> r.users[u].name == s.users[u].name && r.users[u].email == s.users[u].email
  {
  }

  /** ... and keeps every assignment to another user right, and the names
      on `x`'s tasks if they were. */
  lemma AssignKeepsAssignees(s: Store, tid: Id, x: Id, user: User)
    requires ConsistentExcept(s, x)
    requires user.name == s.users[x].name && user.email == s.users[x].email
    ensures var r := AssignTaskToUser(s, tid, x, user).store;
            && (forall t :: t in r.tasks && r.tasks[t].assignedUser != x ==> AssigneeOk(r, r.tasks[t]))
            && (NamesOkFor(s, x) ==> x in r.users && NamesOkFor(r, x))
  {
    var r := AssignTaskToUser(s, tid, x, user).store;
    AssignKeepsProfiles(s, tid, x, user);
    if tid in s.tasks {
      forall t | t in r.tasks && r.tasks[t].assignedUser != x ensures AssigneeOk(r, r.tasks[t]) {
        assert t != tid;
        assert AssigneeOk(s, s.tasks[t]);
      }
    }
  }

  /** `assignTaskToUser` for `x`, with a copy whose name and email are
      `x`'s, keeps the weaker invariant and the names on `x`'s tasks. */
  lemma AssignKeepsExcept(s: Store, tid: Id, x: Id, user: User)
    requires ConsistentExcept(s, x)
    requires user.name == s.users[x].name && user.email == s.users[x].email
    ensures var r := AssignTaskToUser(s, tid, x, user).store;
            && ConsistentExcept(r, x)
            && r.users[x].name == user.name && r.users[x].email == user.email
            && (NamesOkFor(s, x) ==> NamesOkFor(r, x))
  {
    var r := AssignTaskToUser(s, tid, x, user).store;
    AssignKeepsProfiles(s, tid, x, user);
    AssignKeepsAssignees(s, tid, x, user);
    forall u | u in r.users && u != x ensures PendingOk(r, u, r.users[u].pendingTasks) {
      AssignKeepsOthersPending(s, tid, x, user, u);
    }
    assert RecordsValid(r) by {
      forall u | u in r.users ensures ValidUser(r.users[u]) {
        assert ValidUser(s.users[u]);
      }
    }
  }

  /** `assignTaskToUser` over a list keeps the weaker invariant and the
      names on `x`'s tasks, and a right copy stays right. */
  lemma {:induction false} AssignEachKeepsExcept(s: Store, tids: seq<Id>, x: Id, user: User)
    requires ConsistentExcept(s, x)
    requires user.name == s.users[x].name && user.email == s.users[x].email
    ensures var r := AssignEach(s, tids, x, user);
            && ConsistentExcept(r.0, x)
            && r.0.users[x].name == user.name && r.0.users[x].email == user.email
            && (NamesOkFor(s, x) ==> NamesOkFor(r.0, x))
            && (PendingOk(s, x, user.pendingTasks) ==> PendingOk(r.0, x, r.1.pendingTasks))
    decreases |tids|
  {
    if tids != [] {
      var step := AssignTaskToUser(s, tids[0], x, user);
      AssignKeepsExcept(s, tids[0], x, user);
      if PendingOk(s, x, user.pendingTasks) {
        AssignKeepsCopyPending(s, tids[0], x, user);
      }
      AssignEachKeepsExcept(step.store, tids[1..], x, step.user);
    }
  }

  // ---------------------------------------------------------------------
  // The handlers
  // ---------------------------------------------------------------------

  /** DELETE /users/:id keeps the store consistent: no task is left
      assigned to the removed user. */
  lemma DeleteUserKeepsConsistent(s: Store, id: Id)
    requires Consistent(s)
    ensures Consistent(DeleteUser(s, id).store)
  {
    if id in s.users {
      var current := FindAssigned(s, id, false);
      var s1 := UnassignEach(s, current);
      ConsistentIsExcept(s, id);
      UnassignEachKeepsExcept(s, current, id);
      ExceptCloses(s1, id);
      var r := RemoveUser(s1, id);
      assert DeleteUser(s, id).store == r;
      forall t | t in s1.tasks ensures s1.tasks[t].assignedUser != id {
        assert t in s.taskOrder;
      }
      forall t | t in r.tasks ensures AssigneeOk(r, r.tasks[t]) {
        assert AssigneeOk(s1, s1.tasks[t]);
      }
      forall u | u in r.users ensures PendingOk(r, u, r.users[u].pendingTasks) {
        assert PendingOk(s1, u, s1.users[u].pendingTasks);
      }
    }
  }

  /** Saving a new user with no pending tasks keeps the store consistent. */
  lemma SaveNewUserKeepsConsistent(s: Store, newId: Id, user: User)
    requires Consistent(s) && newId != "" && newId !in s.users
    requires ValidUser(user) && user.pendingTasks == [] && !EmailTaken(s, user.email, newId)
    ensures Consistent(SaveUser(s, newId, user))
  {
    var s1 := SaveUser(s, newId, user);
    forall t | t in s1.tasks ensures AssigneeOk(s1, s1.tasks[t]) {
      assert AssigneeOk(s, s.tasks[t]);
    }
    forall u | u in s1.users ensures PendingOk(s1, u, s1.users[u].pendingTasks) {
      if u == newId {
        forall t ensures !IsPendingFor(s1, t, u) {
          if t in s.tasks {
            assert AssigneeOk(s, s.tasks[t]);
          }
        }
      } else {
        assert PendingOk(s, u, s.users[u].pendingTasks);
      }
    }
  }

  /** POST /users keeps the store consistent. */
  lemma CreateUserKeepsConsistent(s: Store, body: UserBody, newId: Id)
    requires Consistent(s) && newId != "" && newId !in s.users
    ensures Consistent(CreateUser(s, body, newId).store)
  {
    var r := CreateUser(s, body, newId);
    if r.outcome.Ok? {
      var user := BuildUser(UserFields(body.name, body.email, Some([]))).value;
      var s1 := SaveUser(s, newId, user);
      var tids := if body.pendingTasks.Some? then body.pendingTasks.value else [];
      SaveNewUserKeepsConsistent(s, newId, user);
      if |tids| > 0 {
        var (s2, user2) := AssignEach(s1, tids, newId, user);
        assert r.store == s2;
        ConsistentIsExcept(s1, newId);
        AssignEachKeepsExcept(s1, tids, newId, user);
        assert s2.users[newId] == user2;
        ExceptCloses(s2, newId);
      }
    }
  }

  /** Overwriting user `id`'s name and email (keeping its pending list)
      leaves the store consistent except for the names on `id`'s tasks. */
  lemma SaveProfileKeepsExcept(s: Store, id: Id, user: User)
    requires Consistent(s) && id in s.users
    requires ValidUser(user) && user.pendingTasks == s.users[id].pendingTasks && !EmailTaken(s, user.email, id)
    ensures var s1 := SaveUser(s, id, user);
            ConsistentExcept(s1, id) && PendingOk(s1, id, s1.users[id].pendingTasks)
  {
    var s1 := SaveUser(s, id, user);
    forall t | t in s1.tasks && s1.tasks[t].assignedUser != id ensures AssigneeOk(s1, s1.tasks[t]) {
      assert AssigneeOk(s, s.tasks[t]);
    }
    forall u | u in s1.users ensures PendingOk(s1, u, s1.users[u].pendingTasks) {
      assert PendingOk(s, u, s.users[u].pendingTasks);
    }
  }

  /** After the unassignments of a user replace, only listed tasks are still
      assigned to the user. */
  lemma OnlyListedRemain(s: Store, id: Id, listed: seq<Id>)
    requires WellFormed(s) && id in s.users
    ensures var s2 := UnassignEach(s, Without(FindAssigned(s, id, false), listed));
            forall t :: t in s2.tasks && s2.tasks[t].assignedUser == id ==> t in listed
  {
    var s2 := UnassignEach(s, Without(FindAssigned(s, id, false), listed));
    forall t | t in s2.tasks && s2.tasks[t].assignedUser == id ensures t in listed {
      assert t in s.taskOrder;
    }
  }

  /** Assigning every task the user should hold, when no other task is
      assigned to it, leaves the user's name on all of its tasks. */
  lemma AssignListedNames(s: Store, id: Id, user: User, listed: seq<Id>)
    requires ConsistentExcept(s, id)
    requires user.name == s.users[id].name && user.email == s.users[id].email
    requires forall t :: t in s.tasks && s.tasks[t].assignedUser == id ==> t in listed
    ensures var r := AssignEach(s, listed, id, user).0;
            ConsistentExcept(r, id) && NamesOkFor(r, id)
  {
    var r := AssignEach(s, listed, id, user).0;
    AssignEachKeepsExcept(s, listed, id, user);
    forall t | t in r.tasks && r.tasks[t].assignedUser == id
      ensures r.tasks[t].assignedUserName == r.users[id].name
    {
      assert t in listed;
    }
  }

  /** The final save of a user replace, which recomputes the pending list
      from the tasks, restores the whole invariant. */
  lemma RecomputeRestores(s: Store, id: Id, user: User)
    requires ConsistentExcept(s, id) && NamesOkFor(s, id)
    requires user.name == s.users[id].name && user.email == s.users[id].email
    ensures Consistent(SaveUser(s, id, user.(pendingTasks := FindAssigned(s, id, true))))
  {
    var r := SaveUser(s, id, user.(pendingTasks := FindAssigned(s, id, true)));
    forall u | u in r.users && u != id ensures PendingOk(r, u, r.users[u].pendingTasks) {
      assert PendingOk(s, u, s.users[u].pendingTasks);
    }
    forall t | t in r.tasks && r.tasks[t].assignedUser != id ensures AssigneeOk(r, r.tasks[t]) {
      assert AssigneeOk(s, s.tasks[t]);
    }
    assert RecordsValid(r) by {
      assert ValidUser(s.users[id]);
    }
    assert ConsistentExcept(r, id);
    assert PendingOk(r, id, r.users[id].pendingTasks);
    ExceptCloses(r, id);
  }

  /** The task-side half of a user replace restores the whole invariant:
      the names on the user's tasks come from the copy, and the final save
      recomputes the pending list from the tasks. */
  lemma SyncRestores(s: Store, id: Id, user: User, listed: seq<Id>)
    requires ConsistentExcept(s, id)
    requires user.name == s.users[id].name && user.email == s.users[id].email
    ensures Consistent(SyncListedTasks(s, id, user, listed))
  {
    var current := FindAssigned(s, id, false);
    var s2 := UnassignEach(s, Without(current, listed));
    UnassignEachKeepsExcept(s, Without(current, listed), id);
    OnlyListedRemain(s, id, listed);
    var (s3, user3) := AssignEach(s2, listed, id, user);
    AssignListedNames(s2, id, user, listed);
    AssignEachKeepsExcept(s2, listed, id, user);
    assert ReassignListed(s, id, user, listed) == (s3, user3);
    RecomputeRestores(s3, id, user3);
  }

  /** PUT /users/:id keeps the store consistent, although the listed tasks
      are assigned with a copy of the user whose pending list has gone out
      of date. */
  lemma ReplaceUserKeepsConsistent(s: Store, id: Id, body: UserBody)
    requires Consistent(s)
    ensures Consistent(ReplaceUser(s, id, body).store)
  {
    var r := ReplaceUser(s, id, body);
    if r.outcome.Ok? {
      var user := BuildUser(UserFields(body.name, body.email, Some(s.users[id].pendingTasks))).value;
      var s1 := SaveUser(s, id, user);
      var listed := if body.pendingTasks.Some? then body.pendingTasks.value else [];
      assert r.store == SaveAndSync(s, id, user, listed);
      assert r.store == SyncListedTasks(s1, id, user, listed);
      SaveProfileKeepsExcept(s, id, user);
      SyncRestores(s1, id, user, listed);
    }
  }

  // ---------------------------------------------------------------------
  // What a created user lists
  // ---------------------------------------------------------------------

  /** Two stores that agree on which tasks exist and which are completed
      pick the same listed pending tasks. */
  lemma {:induction false} ListedPendingFrame(s: Store, s': Store, tids: seq<Id>)
    requires s'.tasks.Keys == s.tasks.Keys
    requires forall t :: t in s.tasks ==> s'.tasks[t].completed == s.tasks[t].completed
    ensures ListedPending(s', tids) == ListedPending(s, tids)
    decreases |tids|
  {
    if tids != [] {
      ListedPendingFrame(s, s', tids[1..]);
    }
  }

  /** One `assignTaskToUser` call on an existing task: the copy gains the
      task when it is pending and loses it otherwise, and no task changes
      its completion. */
  lemma AssignStepPending(s: Store, tid: Id, uid: Id, user: User)
    requires tid in s.tasks
    ensures var step := AssignTaskToUser(s, tid, uid, user);
            && step.user.pendingTasks == (if s.tasks[tid].completed then Remove(user.pendingTasks, tid)
                                          else Dedupe(user.pendingTasks + [tid]))
            && step.store.tasks.Keys == s.tasks.Keys
            && forall t :: t in s.tasks ==> step.store.tasks[t].completed == s.tasks[t].completed
  {
  }

  /** The copy holds no listed task that is completed. */
  ghost predicate NoListedCompleted(s: Store, p: seq<Id>, tids: seq<Id>) {
    forall t :: t in p && t in tids && t in s.tasks ==> !s.tasks[t].completed
  }

  /** Adding a pending task to the front of the rest commutes with
      deduplication. */
  lemma CollectPendingStep(p: seq<Id>, t0: Id, rest: seq<Id>)
    ensures Dedupe(Dedupe(p + [t0]) + rest) == Dedupe(p + ([t0] + rest))
  {
    var a := p + [t0];
    ConcatAssoc(p, [t0], rest);
    DedupeAbsorbs(a, rest);
  }

  /** Stated on its own so that the solver does not search for it next to
      `Dedupe`, where it runs out of resources. */
  lemma ConcatAssoc(a: seq<Id>, b: seq<Id>, c: seq<Id>)
    ensures (a + b) + c == a + (b + c)
  {
  }

  /** Assigning the listed tasks one by one with a threaded copy leaves in
      the copy its old list followed by the listed pending tasks, each once,
      in order of first appearance. */
  lemma {:induction false} AssignEachCollects(s: Store, tids: seq<Id>, uid: Id, user: User)
    requires NoDup(user.pendingTasks) && NoListedCompleted(s, user.pendingTasks, tids)
    ensures AssignEach(s, tids, uid, user).1.pendingTasks == Dedupe(user.pendingTasks + ListedPending(s, tids))
    decreases |tids|
  {
    var p := user.pendingTasks;
    if tids == [] {
      assert p + [] == p;
    } else {
      var t0 := tids[0];
      var step := AssignTaskToUser(s, t0, uid, user);
      var rest := ListedPending(s, tids[1..]);
      assert NoListedCompleted(s, p, tids[1..]) by {
        forall t | t in p && t in tids[1..] && t in s.tasks ensures !s.tasks[t].completed {
          assert t in tids;
        }
      }
      if t0 !in s.tasks {
        AssignEachCollects(s, tids[1..], uid, user);
      } else {
        AssignStepPending(s, t0, uid, user);
        ListedPendingFrame(s, step.store, tids[1..]);
        if s.tasks[t0].completed {
          assert t0 !in p;
          assert step.user == user;
          assert NoListedCompleted(step.store, p, tids[1..]);
          AssignEachCollects(step.store, tids[1..], uid, step.user);
        } else {
          assert NoListedCompleted(step.store, step.user.pendingTasks, tids[1..]);
          AssignEachCollects(step.store, tids[1..], uid, step.user);
          CollectPendingStep(p, t0, rest);
        }
      }
    }
  }

  /** POST /users answers with a user whose pending list is the listed ids
      of existing, incomplete tasks, each once, in the order first listed. */
  lemma CreateUserListsPending(s: Store, body: UserBody, newId: Id)
    requires newId != "" && newId !in s.users
    ensures var r := CreateUser(s, body, newId);
            var listed := if body.pendingTasks.Some? then body.pendingTasks.value else [];
            r.outcome.Ok? ==> r.outcome.value.1.pendingTasks == Dedupe(ListedPending(s, listed))
  {
    var r := CreateUser(s, body, newId);
    var tids := if body.pendingTasks.Some? then body.pendingTasks.value else [];
    if r.outcome.Ok? {
      var user := BuildUser(UserFields(body.name, body.email, Some([]))).value;
      var s1 := SaveUser(s, newId, user);
      if |tids| > 0 {
        AssignEachCollects(s1, tids, newId, user);
        ListedPendingFrame(s, s1, tids);
        assert [] + ListedPending(s1, tids) == ListedPending(s1, tids);
      }
    }
  }

  // ---------------------------------------------------------------------
  // Why a user replace must recompute the pending list
  // ---------------------------------------------------------------------

  /** User "u" holds task "t1"; task "t2" is unassigned. */
  const ExampleBefore := Store(map["t1" := Task("a", "", 1, false, "u", "N"),
                                   "t2" := Task("b", "", 1, false, "", Unassigned)],
                               map["u" := User("N", "e", ["t1"])],
                               ["t1", "t2"])

  /** The same after "t1" is unassigned. */
  const ExampleUnassigned := Store(map["t1" := Task("a", "", 1, false, "", Unassigned),
                                       "t2" := Task("b", "", 1, false, "", Unassigned)],
                                   map["u" := User("N", "e", [])],
                                   ["t1", "t2"])

  /** The same after "t2" is assigned with the copy loaded at the start. */
  const ExampleAssigned := Store(map["t1" := Task("a", "", 1, false, "", Unassigned),
                                     "t2" := Task("b", "", 1, false, "u", "N")],
                                 map["u" := User("N", "e", ["t1", "t2"])],
                                 ["t1", "t2"])

  lemma ExampleUnassignStep()
    ensures UnassignEach(ExampleBefore, Without(FindAssigned(ExampleBefore, "u", false), ["t2"])) == ExampleUnassigned
  {
    var s := ExampleBefore;
    var order: seq<Id> := ["t1", "t2"];
    assert order[1..] == ["t2"] && order[1..][1..] == [];
    assert FindIn(order[1..], s, "u", false) == [];
    assert FindAssigned(s, "u", false) == ["t1"];
    assert Without(["t1"], ["t2"]) == ["t1"];
    var seqT1: seq<Id> := ["t1"];
    assert Remove(seqT1, "t1") == [];
    assert UnassignTask(s, "t1").store == ExampleUnassigned;
    assert seqT1[1..] == [];
  }

  /** Assigning "t2" with the copy loaded before the unassignment: the copy
      keeps "t1" and is what the store now holds for "u". */
  lemma ExampleAssignStep()
    ensures var after := AssignEach(ExampleUnassigned, ["t2"], "u", ExampleBefore.users["u"]);
            && after.0.tasks == ExampleAssigned.tasks
            && after.0.taskOrder == ExampleAssigned.taskOrder
            && after.0.users["u"] == after.1
            && "t1" in after.1.pendingTasks
  {
    var s := ExampleUnassigned;
    var user := ExampleBefore.users["u"];
    assert user.pendingTasks == ["t1"];
    var step := AssignTaskToUser(s, "t2", "u", user);
    var t2: seq<Id> := ["t2"];
    assert t2[1..] == [];
    assert AssignEach(s, t2, "u", user) == (step.store, step.user);
    assert step.store.tasks == ExampleAssigned.tasks;
  }

  /** The recomputation looks only at the tasks and their order. */
  lemma ExampleRecompute(s: Store)
    requires s.tasks == ExampleAssigned.tasks && s.taskOrder == ExampleAssigned.taskOrder
    ensures FindAssigned(s, "u", true) == ["t2"]
  {
    var order: seq<Id> := ["t1", "t2"];
    assert order[1..] == ["t2"] && order[1..][1..] == [];
    assert FindIn(order[1..], s, "u", true) == ["t2"];
  }

  /** A user "u" holding task "t1", replaced with the list ["t2"]: "t1" is
      unassigned first, but the copy then written back while assigning "t2"
      was loaded before that and still lists "t1". Only the final
      recomputation drops it. */
  lemma StaleCopyNeedsRecompute()
    ensures var s := ExampleBefore;
            var copy := s.users["u"];
            var s2 := UnassignEach(s, Without(FindAssigned(s, "u", false), ["t2"]));
            var after := AssignEach(s2, ["t2"], "u", copy);
            && Consistent(s)
            && after.0.tasks["t1"].assignedUser == ""
            && "t1" in after.0.users["u"].pendingTasks
            && !PendingOk(after.0, "u", after.0.users["u"].pendingTasks)
            && SyncListedTasks(s, "u", copy, ["t2"]).users["u"].pendingTasks == ["t2"]
  {
    ExampleUnassignStep();
    ExampleAssignStep();
    ExampleConsistent();
    var after := AssignEach(ExampleUnassigned, ["t2"], "u", ExampleBefore.users["u"]);
    ExampleRecompute(after.0);
    assert ReassignListed(ExampleBefore, "u", ExampleBefore.users["u"], ["t2"]) == after;
    assert !IsPendingFor(after.0, "t1", "u");
  }

  lemma ExampleConsistent()
    ensures Consistent(ExampleBefore)
  {
    var s := ExampleBefore;
    assert s.tasks.Keys == {"t1", "t2"} && s.users.Keys == {"u"};
    var t1: seq<Id> := ["t1"];
    var t2: seq<Id> := ["t2"];
    assert WellFormed(s) by {
      NoDupCons("t2", []);
      assert t2 == ["t2"] + [];
      NoDupCons("t1", t2);
      assert s.taskOrder == ["t1"] + t2;
    }
    assert RecordsValid(s);
    assert UniqueEmails(s);
    assert AssigneeOk(s, s.tasks["t1"]) && AssigneeOk(s, s.tasks["t2"]);
    assert PendingOk(s, "u", t1) by {
      NoDupCons("t1", []);
      assert t1 == ["t1"] + [];
      assert !IsPendingFor(s, "t2", "u");
    }
  }
}
